=== FILE: README.md ===
# memsql-statsd in Dafny

A model of the statsd backend that writes metrics into the `analytics`
table of a MemSQL Ops database, and proofs about it. Three parts of the
program are modelled:

- the **analytics cache**, in `analytics_cache.dfy`. `record` turns a dotted
  metric key, a value and a Unix timestamp into a row:
  - the key itself;
  - the value;
  - the timestamp as an ISO-8601 string;
  - ten classifier slots `alpha` … `kappa` taken from the key's segments.

  `flush` drains the queue in batches of 50 rows. It builds one multi-row
  `INSERT INTO `db`.analytics (…) VALUES (?,…),(?,…)` statement per batch.
  Two supporting files hold the string and time pieces:
  - `strings.dfy`: JavaScript's `split('.')` and `join`;
  - `iso_time.dfy`: `Date.prototype.toISOString` for whole seconds, with a
    parser that inverts it.
- the **backend**, in `memsql_statsd.dfy`:
  - the check of the `memsql` configuration block, with its defaults;
  - the translation of one statsd flush into records: counters, timers,
    gauges, sets and the backend's own statistics;
  - the `status` report;
  - the backend's flush.
- the **aggregator directory**, in `aggregators_pool.dfy`:
  - the master aggregator;
  - the aggregator list learnt from `SHOW AGGREGATORS`, and its refresh
    with its three routes (direct to the master, through a pooled
    connection, falling back to the master) and its error paths;
  - the random choice of an aggregator when a connection is created.

All I/O is an input to the model:
- what the network answers: whether a connection succeeds, which pooled
  connection is handed out, and the answer to the query;
- what the cache reports after a flush;
- the elapsed time;
- `Math.random()`.

Three program crashes are outcomes of the model, not preconditions:
- a refresh that calls a missing callback (`RefreshResult.TypeError`);
- a refresh that queries through the `false` a failed connection returns
  (`RefreshResult.TypeError`);
- connection creation that, after refreshing an empty list to an empty
  answer, reads the host of a missing aggregator (`CreateCrash`,
  lib/aggregators_pool.js:67-69 and :51).

Integers, JavaScript numbers and the timestamp's calendar are modelled as
follows:
- Metric values and ports are `real`. A value is only passed through.
- Statistics are `int`.
- A timestamp is a whole number of seconds from 1970 whose year is at most
  9999 (`IsoTime.Timestamp`). Those are the timestamps `toISOString` writes
  as `YYYY-MM-DDTHH:MM:SS.000Z`.

A failed `SHOW AGGREGATORS` query resets the list and reports the error; it
does not fall back to the master.

## Model

| member | source | states |
|---|---|---|
| Strings.Split | lib/analytics_cache.js:20 | `split('.')` gives one more segment than the key has dots, every segment is dot-free, and joining the segments with `.` gives the key back |
| Strings.SplitJoin | lib/analytics_cache.js:20 | splitting the `.`-join of a non-empty list of dot-free segments gives exactly those segments back |
| IsoTime.ToDateTime | lib/analytics_cache.js:32 | the calendar date and time of a timestamp is a valid Gregorian date whose seconds since 1970 are the timestamp |
| IsoTime.ToDateTimeUnique | lib/analytics_cache.js:32 | the valid date with given seconds since 1970 is unique |
| IsoTime.FormatIso | lib/analytics_cache.js:32 | `toISOString` writes 24 characters with `-`, `T`, `:` at fixed places and ends in `.000Z` |
| IsoTime.ParseFormat | lib/analytics_cache.js:32 | parsing the ISO string gives the timestamp back |
| IsoTime.FormatParse | lib/analytics_cache.js:32 | any string that parses is the ISO string of the timestamp it parses to |
| IsoTime.FormatInjective | lib/analytics_cache.js:32 | distinct timestamps are written as distinct strings |
| AnalyticsCache.ColumnsMatchPlaceholder | lib/analytics_cache.js:38 | the INSERT lists 13 columns (3 plus the ten classifiers of lines 9-10) and the placeholder group is `(` then 13 `?` separated by commas then `)` |
| AnalyticsCache.ClassifierSlotsAsWritten | lib/analytics_cache.js:20-30 | the code's slots: over ten segments keep segments 0-7 then segments 9 onwards joined; under nine segments padded to ten; nine or ten left as they are |
| AnalyticsCache.NineSegmentKeyNotPadded | lib/analytics_cache.js:27-29 | a nine-segment key gets nine slots from the code, not ten |
| AnalyticsCache.LongKeyLosesNinthSegment | lib/analytics_cache.js:24-26 | for any key of more than ten segments the code yields nine slots and its join misses segment 8 and one dot |
| AnalyticsCache.ElevenSegmentKeyDropsSegment | lib/analytics_cache.js:24-26 | the key `a.b.c.d.e.f.g.h.i.j.k` gets the slots `a` … `h`, `j.k`: `i` is lost |
| AnalyticsCache.ClassifierSlots | lib/analytics_cache.js:22-29 | always ten slots: segments beyond the ninth joined into the last slot, a shorter key padded with empty strings |
| AnalyticsCache.ClassifierSlotsRoundTrip | lib/analytics_cache.js:22-26 | the used slots joined with `.` give the key back: no segment and no character is lost |
| AnalyticsCache.CorrectedAgreesWithCode | lib/analytics_cache.js:20-30 | for keys of at most eight or exactly ten segments the corrected slots equal the code's |
| AnalyticsCache.ShortKeyPadded | lib/analytics_cache.js:27-29 | a key of fewer than nine segments gets ten slots: its segments in order, then empty strings; the used slots join back to the key |
| AnalyticsCache.RowLayout | lib/analytics_cache.js:32 | a row holds the key, the value, an ISO string that parses back to the timestamp, and one value per INSERT column |
| AnalyticsCache.Record | lib/analytics_cache.js:19-33 | `record` appends exactly one row and leaves the queued rows as they were; the new row has the key, value and parsable timestamp, 13 values, and exactly the ten corrected slots, whose used ones join back to the key |
| AnalyticsCache.RecordAsWritten | lib/analytics_cache.js:19-33 | the code's `record`: one row appended, queue untouched, slots as the code computes them |
| AnalyticsCache.NineSegmentRowMisaligned | lib/analytics_cache.js:32 | the code queues a 12-value row for a nine-segment key, one short of the 13 placeholders of its group |
| AnalyticsCache.Cells | lib/analytics_cache.js:32 | a row is bound as the key, the value, the ISO string, then its classifier slots in order |
| AnalyticsCache.RowOf | lib/analytics_cache.js:19-32 | the corrected row of a sample: its key, its value, an ISO string that parses back to its timestamp, and its ten corrected slots |
| AnalyticsCache.RowOfAsWritten | lib/analytics_cache.js:19-32 | the row the code queues: key, value, a parsable ISO string, and the code's slots |
| AnalyticsCache.RowOfAgrees | lib/analytics_cache.js:24-30 | the code's row equals the corrected row exactly for keys of at most eight or exactly ten segments, and differs for nine or more than ten |
| AnalyticsCache.RecordAllAsWritten | lib/memsql_statsd.js:86-126 | the rows the code queues for a list of samples: one code row per sample, in order, after the rows already queued |
| AnalyticsCache.RecordAllAsWrittenIsRecordEach | lib/memsql_statsd.js:86-126 | the code's rows for a list of samples are one code `record` call per sample in turn |
| AnalyticsCache.RecordAll | lib/memsql_statsd.js:86-126 | recording a list of samples appends one row per sample, in order, after the rows already queued |
| AnalyticsCache.RecordAllIsRecordEach | lib/memsql_statsd.js:86-126 | recording a list of samples is the same as one `record` call per sample in turn |
| AnalyticsCache.Batches | lib/analytics_cache.js:40-41 | repeated `splice(0, 50)` cuts the queue into ceil(n/50) consecutive non-empty batches of at most 50, all but the last full, whose concatenation is the queue |
| AnalyticsCache.PlaceholderCount | lib/analytics_cache.js:46-56 | the VALUES clause of a batch of n rows holds 13·n `?` |
| AnalyticsCache.AlignedBatchBindsEveryPlaceholder | lib/analytics_cache.js:44-57 | a batch of 13-value rows binds exactly as many values as its statement has `?` |
| AnalyticsCache.BatchStatement | lib/analytics_cache.js:44-56 | the statement for a batch starts with the template (exactly the template for an empty batch) and binds the batch's rows' values in row order |
| AnalyticsCache.StatementTemplate | lib/analytics_cache.js:36 | the statement starts `INSERT INTO `, then the database name in backticks qualifies the `analytics` table, then the comma-separated column list, then ` VALUES ` |
| AnalyticsCache.AssembleBatch | lib/analytics_cache.js:44-56 | the loop over a batch builds the template, one placeholder group per row, and the rows' values concatenated in row order |
| AnalyticsCache.DrainQueue | lib/analytics_cache.js:40-62 | the drain loop empties the queue and builds one statement per batch, in order |
| AnalyticsCache.Flush | lib/analytics_cache.js:35-63 | `flush` leaves the queue empty, builds ceil(n/50) statements, statement i built from batch i, and the values of all statements together are the values of every queued row in queue order |
| AnalyticsCache.FlushBindsEveryValue | lib/analytics_cache.js:40-57 | the statements built one per batch bind every queued value exactly once, in order |
| MemsqlStatsd.OptionalString | lib/memsql_statsd.js:64-71 | an optional string setting takes its default when absent, its value when a string, and otherwise its own error |
| MemsqlStatsd.ProcessConfig | lib/memsql_statsd.js:51-72 | the configuration is accepted exactly when the `memsql` block exists, has a string host, and every given setting has its type. A missing block and a missing host give their errors. Otherwise the settings are checked in order (host, port, user, password, database) and the first one given with the wrong type gives its own error. Accepted settings take the given values or the defaults 3306, `root`, empty and `dashboard`. `debug` is the truthiness of the `debug` setting |
| MemsqlStatsd.ConfigRoundTrip | lib/memsql_statsd.js:51-72 | any settings written out as a configuration object are accepted unchanged |
| MemsqlStatsd.ConfigDefaults | lib/memsql_statsd.js:61-71 | a block holding only a host gets port 3306, user `root`, empty password and database `dashboard` |
| MemsqlStatsd.HostCheckedFirst | lib/memsql_statsd.js:58-59 | a non-string host is reported whatever the other settings are |
| MemsqlStatsd.NonZero | lib/memsql_statsd.js:76 | the truthy statistics are exactly those with a non-zero value |
| MemsqlStatsd.NonZeroAppend | lib/memsql_statsd.js:75-76 | filtering keeps the order: the kept entries of a list followed by another are those of the first, then those of the second |
| MemsqlStatsd.NonZeroStatsInOrder | lib/memsql_statsd.js:39-43 | the truthy statistics are `exception_count`, `flush_time`, `flush_length` in declaration order, each once, each only when non-zero |
| MemsqlStatsd.Status | lib/memsql_statsd.js:74-80 | `status` writes a `memsql` line for a statistic exactly when its value is non-zero |
| MemsqlStatsd.StatusInOrder | lib/memsql_statsd.js:74-80 | `status` writes one line per non-zero statistic, each once, in the declaration order `exception_count`, `flush_time`, `flush_length` |
| MemsqlStatsd.InitialStatus | lib/memsql_statsd.js:39-43 | a fresh backend reports only `flush_time` at -1 |
| MemsqlStatsd.UpdateStats | lib/memsql_statsd.js:131-137 | a failed flush adds one exception and keeps the timings; a successful one sets the flush time and the number of rows flushed |
| MemsqlStatsd.StatusReportsFlushLength | lib/memsql_statsd.js:135-136 | after a successful flush of n > 0 rows the status carries `flush_length` n |
| MemsqlStatsd.StatusReportsFailure | lib/memsql_statsd.js:131-133 | after a failed flush the status carries the increased exception count |
| Strings.Join | lib/memsql_statsd.js:90 | `join` of no parts is empty, and a join of one or more parts starts with the first part |
| Strings.JoinLength | lib/memsql_statsd.js:90 | a join of n parts is as long as the parts together plus n - 1 separators |
| MemsqlStatsd.Dotted | lib/memsql_statsd.js:90 | `[a, b].join('.')` is `a`, a dot, then `b` |
| MemsqlStatsd.Dotted3 | lib/memsql_statsd.js:102-103 | `[a, b, c].join('.')` is `a`, a dot, `b`, a dot, then `c` |
| MemsqlStatsd.CounterPairAsWritten | lib/memsql_statsd.js:90-91 | the code writes `<key>.count` and `<key>.rate`, both with the count |
| MemsqlStatsd.CounterPair | lib/memsql_statsd.js:88-91 | the corrected pair: `<key>.count` with the count, `<key>.rate` with the per-second rate |
| MemsqlStatsd.RateRecordCarriesCount | lib/memsql_statsd.js:87-91 | the code's `.rate` record carries the counter's count, and differs from the intended record whenever the rate differs from the count |
| MemsqlStatsd.CounterSamples | lib/memsql_statsd.js:86-92 | each counter gives a `<key>.count` record with its count then a `<key>.rate` record with its rate, in counter order |
| MemsqlStatsd.CounterSamplesAsWritten | lib/memsql_statsd.js:86-92 | the code gives each counter a `<key>.count` and a `<key>.rate` record, both with its count, in counter order |
| MemsqlStatsd.CounterSamplesAsWrittenUseCount | lib/memsql_statsd.js:88-91 | the code's counter records are the corrected records of the same counters with each rate replaced by its count |
| MemsqlStatsd.FieldSamples | lib/memsql_statsd.js:96-108 | a numeric timer field gives one `<timer>.<field>` record; an object field gives one `<timer>.<field>.<sub>` record per entry, in order |
| MemsqlStatsd.TimerSamples | lib/memsql_statsd.js:95-110 | a timer gives one record per numeric field and one per entry of an object field, all stamped with the flush time |
| MemsqlStatsd.TimerSamplesFieldByField | lib/memsql_statsd.js:96-108 | a timer's records are each field's records, keys and values as `FieldSamples` states, in field order |
| MemsqlStatsd.ScalarTimerSamples | lib/memsql_statsd.js:97-99 | a timer whose fields are all numbers gives exactly one `<timer>.<field>` record per field, in order |
| MemsqlStatsd.AllTimerSamples | lib/memsql_statsd.js:95-110 | all timers together give as many records as their fields and entries, all stamped with the flush time |
| MemsqlStatsd.AllTimerSamplesTimerByTimer | lib/memsql_statsd.js:95-110 | the timers' records are each timer's records, in timer order |
| MemsqlStatsd.GaugeSamples | lib/memsql_statsd.js:113-115 | each gauge gives one record under its own key with its value |
| MemsqlStatsd.SetSamples | lib/memsql_statsd.js:118-120 | each set gives one `<key>.count` record carrying its number of distinct members |
| MemsqlStatsd.EntrySamples | lib/memsql_statsd.js:122-126 | each statistic entry gives one `memsql_statsd.<name>` record with its value |
| MemsqlStatsd.StatSamples | lib/memsql_statsd.js:122-126 | one `memsql_statsd.<name>` record with its value per non-zero statistic, in the declaration order `exception_count`, `flush_time`, `flush_length`, stamped with the flush time |
| MemsqlStatsd.OtherSamples | lib/memsql_statsd.js:94-126 | after the counters come the timers' records, then the gauges', then the sets', then the statistics' |
| MemsqlStatsd.FlushSamples | lib/memsql_statsd.js:82-126 | one flush records the counters', timers', gauges', sets' and non-zero statistics' records, in that order: 2 per counter, one per timer field or entry, one per gauge and set, and one per non-zero statistic, all stamped with the flush's timestamp |
| MemsqlStatsd.FlushSamplesAsWritten | lib/memsql_statsd.js:82-126 | the code's records: the code's counter records, then the same timer, gauge, set and statistics records as the corrected flush |
| MemsqlStatsd.FlushSamplesAsWrittenUseCount | lib/memsql_statsd.js:88-91 | the code's records for some metrics are the corrected records of the same metrics with every counter's rate replaced by its count |
| MemsqlStatsd.InitialStatSamples | lib/memsql_statsd.js:122-126 | a fresh backend records only `memsql_statsd.flush_time` at -1 |
| MemsqlStatsd.Start | lib/memsql_statsd.js:33-43 | a backend starts exactly when its configuration is accepted, with the accepted settings, the initial statistics, an empty queue, and a pool that knows only the configured master and its credentials |
| MemsqlStatsd.FlushAsWritten | lib/memsql_statsd.js:82-138 | the code's flush queues the code's rows for the code's records. Statement i is the INSERT into the configured database for batch i of that queue, so each statement is built from its own batch. The statistics never change |
| MemsqlStatsd.FrozenStatsMissReport | lib/memsql_statsd.js:129-138 | statistics left unchanged disagree with the cache's report after every failure, and after every success whose row count or duration differs from the last one recorded |
| MemsqlStatsd.Flush | lib/memsql_statsd.js:82-138 | the corrected flush empties the queue. Statement i is the INSERT into the configured database for batch i of the queued and newly recorded rows; there are ceil(n/50) statements binding every value once, in order. The statistics take in the cache's report |
| AggregatorsPool.NewPool | lib/aggregators_pool.js:13-16 | a new pool knows only its master, with the given settings, and no aggregator |
| AggregatorsPool.Reset | lib/aggregators_pool.js:34-38 | `_reset` forgets every aggregator and keeps the master |
| AggregatorsPool.MapRows | lib/aggregators_pool.js:108-116 | one node per answer row in order: the row's port, its host unless it is `127.0.0.1` (then the queried host), and the master's user and password |
| AggregatorsPool.MapRowsNoLoopback | lib/aggregators_pool.js:109 | when the queried host is not `127.0.0.1`, no node keeps a loopback address |
| AggregatorsPool.MapRowsKeepsAddresses | lib/aggregators_pool.js:108-116 | rows without a loopback address are taken over as given |
| AggregatorsPool.RouteOf | lib/aggregators_pool.js:124-138 | with no aggregator known the master is queried directly; otherwise through the pooled connection handed out, when there is one |
| AggregatorsPool.Update | lib/aggregators_pool.js:94-121 | a failed query empties the list and reports failure; an answer replaces the list with its rows; the master never changes |
| AggregatorsPool.Refresh | lib/aggregators_pool.js:91-139 | the refresh dies on a TypeError exactly when the master cannot be reached and either there is no callback (empty list) or no pooled connection (non-empty list). It reports an unreachable master, list unchanged, exactly when the list is empty, the master cannot be reached and there is a callback. Whenever the query is sent (through a pooled connection, or to a reachable master) the refresh completes: an answer replaces the list with its rows mapped against the queried host, a failed query empties it, and the report says which. The master never changes |
| AggregatorsPool.RefreshKeepsCredentials | lib/aggregators_pool.js:110-115 | after any completed refresh every aggregator uses the master's credentials |
| AggregatorsPool.FailedRefreshEmptiesList | lib/aggregators_pool.js:96-99 | a refresh that reports failure leaves the list empty, so the next one queries the master directly |
| AggregatorsPool.QueriedHost | lib/aggregators_pool.js:108-109 | a loopback row is renamed to the host the query went to: the pooled aggregator's host, or the master's on the direct and fallback routes |
| AggregatorsPool.RefreshedList | lib/aggregators_pool.js:108-116 | when the queried host is not 127.0.0.1, a successful refresh knows one aggregator per answer row, none at a loopback address |
| AggregatorsPool.ChooseIndex | lib/aggregators_pool.js:67 | `Math.floor(Math.random() * n)` is a valid index when the list is non-empty |
| AggregatorsPool.ChooseIndexShare | lib/aggregators_pool.js:67 | aggregator i of n is chosen exactly when the random number lies in [i/n, (i+1)/n) |
| AggregatorsPool.Connect | lib/aggregators_pool.js:66-72 | the aggregator at index `floor(r·n)` is connected, or a failure naming that same aggregator is reported; with no aggregator at all the attempt dies |
| AggregatorsPool.ConnectionCreate | lib/aggregators_pool.js:65-83 | with aggregators known a connection goes straight to a random one. With none the list is refreshed from the master first. An unreachable master or a failed query is reported without a connection attempt. An answer replaces the list with its rows, and the connection then goes to a random one of them |
| AggregatorsPool.ConnectionUsesMasterCredentials | lib/aggregators_pool.js:65-83 | every connection made uses the master's user and password |
| AggregatorsPool.EmptyAnswerCrashes | lib/aggregators_pool.js:74-79 | from an empty list, connection creation dies exactly when the master answers with no aggregator |

## Left out

- `_.throttle(…, 1000)` on the cache's `flush`: the model flushes on every call. It does not model the one-second window or the trailing call.
- The asynchronous `acquire` and `exec` callbacks of the cache's flush: the model stops at the built statement. A failed acquire or exec loses its batch silently in the code; that is not modelled.
- The loop in the cache's flush keeps `values` and `statement_values` in function-scoped variables that the asynchronous callbacks read later. Whether a callback sees its own batch depends on when `generic-pool` calls it back (see `AnalyticsCache.Flush` below).
- `generic-pool` itself: pool size 5, the 10 s idle timeout, and `acquire`, `release`, `destroy`, `close` and `destroyAllNow` pass straight to it. `Reset` models only the emptied list.
- The 60 s refresh interval timer, and the logger and `util.log` / `util.debug` output.
- The MySQL client `mapper`: connecting, `SHOW AGGREGATORS` and `disconnect` are inputs (`RefreshIo`, `connects`). The pooled connection a refresh queries through is never released in the code; the model does not track pool connections.
- `exports.init`, the event wiring and `console.log` of a start-up error: `Start` returns the error instead.
- The repeated `if (err)` block at lib/aggregators_pool.js:102-106 is unreachable after the first and is not modelled separately.
- IsoTime.FormatIso: covers timestamps from 1970 up to year 9999 in whole seconds. Negative timestamps, fractional seconds, and years with six-digit ISO forms are not modelled.
- MemsqlStatsd.ProcessConfig: JavaScript `NaN`, `Infinity` and arrays are not modelled as configuration values. The configuration object is not mutated with the defaults; the settings are returned instead.
- MemsqlStatsd.FlushAsWritten: models each statement as built from its own batch. In the code each `acquire` callback reads the function-scoped `values` and `statement_values` after the loop has moved on, so when the callbacks are deferred (on the first flush the aggregator list is empty and every `acquire` waits for a refresh) every statement binds the last batch.
- MemsqlStatsd.Truthy: `NaN` is not a modelled number, so its falsiness is not modelled.
- MemsqlStatsd.FlushSamples: statsd's objects are given as sequences in the order `for … in` visits their keys (integer-like keys first, ascending, then the others in insertion order); that order is not derived. A timer field that is neither a number nor an object of numbers is not modelled.
- MemsqlStatsd.Flush: the cache's report is an input, since the code's cache never produces one. The elapsed time is an input too; the code computes it with `Date.now()`.
- AnalyticsCache.Flush: the statements are built, not sent. Each `acquire` callback reads `values` and `statement_values` after the loop has moved on. On the first flush after start the aggregator list is empty, so every `acquire` waits for an asynchronous refresh. Every statement then binds the last batch's placeholders and values, and the earlier batches are lost. The model builds each statement from its own batch.

## Findings

| source | as written | input that shows it | evidently intended | confidence | as-written member | corrected member |
|---|---|---|---|---|---|---|
| lib/analytics_cache.js:27 | `classifiers.length < CLASSIFIERS.length - 1` pads only keys of fewer than nine segments | key `a.b.c.d.e.f.g.h.i` (nine segments) gets nine slots and a 12-value row against 13 placeholders | pad every key of fewer than ten segments to ten slots | not executed; high | AnalyticsCache.NineSegmentKeyNotPadded, AnalyticsCache.NineSegmentRowMisaligned, AnalyticsCache.RowOfAgrees | AnalyticsCache.ClassifierSlots |
| lib/analytics_cache.js:25-26 | `splice(CLASSIFIERS.length - 1)` removes segments 9 onwards, then overwrites the last remaining slot, segment 8, with their join | key `a.b.c.d.e.f.g.h.i.j.k` gets slots `a` … `h`, `j.k`: nine slots, `i` lost | keep segments 0-8 and put segments 9 onwards, joined, in the tenth slot | not executed; high | AnalyticsCache.LongKeyLosesNinthSegment, AnalyticsCache.ElevenSegmentKeyDropsSegment | AnalyticsCache.ClassifierSlotsRoundTrip |
| lib/memsql_statsd.js:88-91 | the `.rate` record is written with `value`, the count; `value_per_second` is read and never used | counter `c` with count 10 and rate 1 records `c.rate` = 10 | record `c.rate` with the per-second rate | not executed; high | MemsqlStatsd.RateRecordCarriesCount, MemsqlStatsd.FlushSamplesAsWrittenUseCount | MemsqlStatsd.CounterSamples |
| lib/memsql_statsd.js:129-138 | `this.cache.flush(callback)` passes a callback that the cache's `flush` (lib/analytics_cache.js:35) never takes or calls | any flush: the status keeps reporting `flush_time` -1, and exceptions are never counted | update the statistics from the cache's report | not executed; high | MemsqlStatsd.FlushAsWritten, MemsqlStatsd.FrozenStatsMissReport | MemsqlStatsd.Flush |

=== FILE: aggregators_pool.dfy ===
/** The aggregator directory behind the connection pool: the master
    aggregator's settings, the list of aggregators learnt from
    `SHOW AGGREGATORS`, its refresh, and the choice of an aggregator for a
    new connection. What the network answers is an input. */
module AggregatorsPool {
  import opened Wrappers

  /** Connection settings of one aggregator. */
  datatype Node = Node(host: string, port: real, user: string, password: string)

  /** One row of the `SHOW AGGREGATORS` answer. */
  datatype AggregatorRow = AggregatorRow(host: string, port: real)

  /** The master aggregator and the aggregators currently known. */
  datatype Pool = Pool(master: Node, aggregators: seq<Node>)

  /** The address an aggregator reports when it runs on the master's own host. */
  const Loopback: string := "127.0.0.1"

  /** A new pool knows only its master. */
  function NewPool(host: string, port: real, user: string, password: string): (p: Pool)
    ensures p.master.host == host && p.master.port == port
    ensures p.master.user == user && p.master.password == password
    ensures p.aggregators == []
    ensures Credentialed(p)
  {
    Pool(Node(host, port, user, password), [])
  }

  /** Every known aggregator is reached with the master's user and password. */
  predicate Credentialed(p: Pool)
  {
    forall i :: 0 <= i < |p.aggregators| ==>
      p.aggregators[i].user == p.master.user && p.aggregators[i].password == p.master.password
  }

  /** Back to the initial state: no aggregator known (the open connections
      are dropped as well). */
  function Reset(p: Pool): (r: Pool)
    ensures r.master == p.master && r.aggregators == []
    ensures Credentialed(r)
  {
    p.(aggregators := [])
  }

  /** The answer rows as connection settings: a loopback address is
      replaced by the host that was queried, and the credentials are the
      master's. */
  function MapRows(rows: seq<AggregatorRow>, queried: string, master: Node): (r: seq<Node>)
    ensures |r| == |rows|
    ensures forall i :: 0 <= i < |rows| ==>
      r[i].host == (if rows[i].host == Loopback then queried else rows[i].host) && r[i].port == rows[i].port
    ensures forall i :: 0 <= i < |rows| ==> r[i].user == master.user && r[i].password == master.password
  {
    seq(|rows|, i requires 0 <= i < |rows| =>
      Node(if rows[i].host == Loopback then queried else rows[i].host, rows[i].port, master.user, master.password))
  }

  /** Once the queried host is a real address, no loopback address is left. */
  lemma MapRowsNoLoopback(rows: seq<AggregatorRow>, queried: string, master: Node)
    requires queried != Loopback
    ensures forall i :: 0 <= i < |rows| ==> MapRows(rows, queried, master)[i].host != Loopback
  {
  }

  /** Rows that name no loopback address are taken over as they are. */
  lemma MapRowsKeepsAddresses(rows: seq<AggregatorRow>, queried: string, master: Node)
    requires forall i :: 0 <= i < |rows| ==> rows[i].host != Loopback
    ensures forall i :: 0 <= i < |rows| ==>
      MapRows(rows, queried, master)[i] == Node(rows[i].host, rows[i].port, master.user, master.password)
  {
  }

  // Refreshing the list

  /** The answer to `SHOW AGGREGATORS`. */
  datatype QueryOutcome = Answer(rows: seq<AggregatorRow>) | QueryFailed

  /** What the network does during one refresh: whether a connection to the
      master succeeds, which pooled connection (to which aggregator) the pool
      hands out, if any, and the answer to the query. */
  datatype RefreshIo = RefreshIo(masterConnects: bool, acquired: Option<Node>, answer: QueryOutcome)

  datatype RefreshError = MasterUnreachable | ListUnavailable

  /** What the caller's callback hears: nothing when there is no callback. */
  datatype Report = Silent | Refreshed | Failed(reason: RefreshError)

  /** A refresh either completes, or dies on a TypeError: calling a missing
      callback, or querying through the `false` a failed connection returns. */
  datatype RefreshResult = Completed(pool: Pool, report: Report) | TypeError

  /** The connection a refresh queries through. */
  datatype Route = Direct | Pooled(via: Node) | Fallback

  /** With no aggregator known the master is asked directly; otherwise a
      pooled connection is used, and the master when none can be had. */
  function RouteOf(p: Pool, io: RefreshIo): (r: Route)
    ensures r.Direct? <==> |p.aggregators| == 0
    ensures r.Pooled? <==> |p.aggregators| > 0 && io.acquired.Some?
    ensures r.Pooled? ==> r.via == io.acquired.value
  {
    if |p.aggregators| == 0 then Direct
    else if io.acquired.Some? then Pooled(io.acquired.value)
    else Fallback
  }

  /** The host the query is sent to. */
  function QueriedHost(p: Pool, route: Route): (r: string)
    ensures route.Pooled? ==> r == route.via.host
    ensures !route.Pooled? ==> r == p.master.host
  {
    match route
    case Pooled(via) => via.host
    case _ => p.master.host
  }

  /** The query's answer taken in: a failure empties the list, an answer
      replaces it. */
  function Update(p: Pool, queried: string, answer: QueryOutcome, hasCallback: bool): (r: RefreshResult)
    ensures r.Completed? && r.pool.master == p.master
    ensures answer.QueryFailed? ==> r.pool.aggregators == []
    ensures answer.Answer? ==> r.pool.aggregators == MapRows(answer.rows, queried, p.master)
    ensures r.report == (if !hasCallback then Silent else if answer.QueryFailed? then Failed(ListUnavailable) else Refreshed)
  {
    match answer
    case QueryFailed => Completed(Reset(p), if hasCallback then Failed(ListUnavailable) else Silent)
    case Answer(rows) => Completed(p.(aggregators := MapRows(rows, queried, p.master)), if hasCallback then Refreshed else Silent)
  }

  /** `SHOW AGGREGATORS` is sent: through the pooled connection handed out,
      or to the master when it can be reached. */
  predicate QueryRuns(p: Pool, io: RefreshIo)
  {
    RouteOf(p, io).Pooled? || io.masterConnects
  }

  /** `_refresh_aggregators`: find a connection to query, ask it for the
      aggregator list and take the answer in. */
  function Refresh(p: Pool, io: RefreshIo, hasCallback: bool): (r: RefreshResult)
    ensures r.TypeError? <==>
      || (|p.aggregators| == 0 && !io.masterConnects && !hasCallback)
      || (|p.aggregators| > 0 && io.acquired.None? && !io.masterConnects)
    ensures r.Completed? ==> r.pool.master == p.master
    ensures r.Completed? && hasCallback ==> r.report != Silent
    ensures r.Completed? && !hasCallback ==> r.report == Silent
    ensures r == Completed(p, Failed(MasterUnreachable)) <==> |p.aggregators| == 0 && !io.masterConnects && hasCallback
    ensures QueryRuns(p, io) && io.answer.Answer? ==>
      && r.Completed?
      && r.pool.aggregators == MapRows(io.answer.rows, QueriedHost(p, RouteOf(p, io)), p.master)
      && r.report == (if hasCallback then Refreshed else Silent)
    ensures QueryRuns(p, io) && io.answer.QueryFailed? ==>
      && r.Completed?
      && r.pool.aggregators == []
      && r.report == (if hasCallback then Failed(ListUnavailable) else Silent)
  {
    var route := RouteOf(p, io);
    match route
    case Direct =>
      if io.masterConnects then Update(p, p.master.host, io.answer, hasCallback)
      else if hasCallback then Completed(p, Failed(MasterUnreachable))
      else TypeError
    case Pooled(via) => Update(p, via.host, io.answer, hasCallback)
    case Fallback =>
      if io.masterConnects then Update(p, p.master.host, io.answer, hasCallback)
      else TypeError
  }

  /** A refresh that completes keeps every aggregator on the master's
      credentials. */
  lemma RefreshKeepsCredentials(p: Pool, io: RefreshIo, hasCallback: bool)
    requires Credentialed(p)
    ensures Refresh(p, io, hasCallback).Completed? ==> Credentialed(Refresh(p, io, hasCallback).pool)
  {
  }

  /** A failed refresh always leaves the list empty, so the next refresh
      goes to the master directly. */
  lemma FailedRefreshEmptiesList(p: Pool, io: RefreshIo, hasCallback: bool)
    ensures var r := Refresh(p, io, hasCallback);
      r.Completed? && r.report.Failed? ==> r.pool.aggregators == [] && RouteOf(r.pool, io) == Direct
  {
  }

  /** A successful refresh knows exactly the aggregators the answer lists,
      and none by a loopback address once the queried host is real. */
  lemma RefreshedList(p: Pool, io: RefreshIo, hasCallback: bool)
    requires io.answer.Answer?
    requires QueriedHost(p, RouteOf(p, io)) != Loopback
    ensures var r := Refresh(p, io, hasCallback);
      r.Completed? && r.report != Failed(MasterUnreachable) ==>
        && |r.pool.aggregators| == |io.answer.rows|
        && forall i :: 0 <= i < |r.pool.aggregators| ==> r.pool.aggregators[i].host != Loopback
  {
    var r := Refresh(p, io, hasCallback);
    if r.Completed? && r.report != Failed(MasterUnreachable) {
      MapRowsNoLoopback(io.answer.rows, QueriedHost(p, RouteOf(p, io)), p.master);
    }
  }

  // Creating a connection

  /** `Math.floor(r * n)` for `r = Math.random()`, which lies in [0, 1). */
  function ChooseIndex(r: real, n: nat): (i: int)
    requires 0.0 <= r < 1.0
    ensures n > 0 ==> 0 <= i < n
    ensures n == 0 ==> i == 0
  {
    assert n > 0 ==> (1.0 - r) * (n as real) > 0.0;
    (r * n as real).Floor
  }

  /** Aggregator `i` of `n` is chosen exactly when the random number lies in
      [i/n, (i+1)/n): each gets an equal share of the range. */
  lemma ChooseIndexShare(r: real, n: nat, i: int)
    requires 0.0 <= r < 1.0 && n > 0
    ensures ChooseIndex(r, n) == i <==> (i as real) / (n as real) <= r < ((i + 1) as real) / (n as real)
  {
    var m := n as real;
    var x := r * m;
    assert ChooseIndex(r, n) == x.Floor;
    FloorIs(x, i);
    DivideThrough(i as real, r, m);
    DivideThrough((i + 1) as real, r, m);
  }

  /** `x` rounds down to `i` exactly when it lies in [i, i+1). */
  lemma FloorIs(x: real, i: int)
    ensures x.Floor == i <==> (i as real) <= x < (i + 1) as real
  {
    var f := x.Floor;
    if (i as real) <= x < (i + 1) as real {
      assert f as real < (i + 1) as real && (i as real) < (f + 1) as real;
    }
  }

  /** `a / m` compared with `r` is `a` compared with `r * m`, for `m > 0`. */
  lemma DivideThrough(a: real, r: real, m: real)
    requires m > 0.0
    ensures a / m <= r <==> a <= r * m
    ensures r < a / m <==> r * m < a
  {
    assert (a / m) * m == a;
    ScaleOrder(a / m, r, m);
    ScaleOrder(r, a / m, m);
  }

  /** Multiplying by a positive number keeps the order. */
  lemma ScaleOrder(a: real, b: real, m: real)
    requires m > 0.0
    ensures a <= b <==> a * m <= b * m
    ensures a < b <==> a * m < b * m
  {
    if a < b {
      assert (b - a) * m > 0.0;
    } else if b < a {
      assert (a - b) * m > 0.0;
    }
  }

  datatype CreateError = RefreshFailed(reason: RefreshError) | ConnectFailed(node: Node)

  /** A connection to `node`, a failure, or a TypeError when the list is
      still empty after a refresh and there is no aggregator to connect to. */
  datatype CreateResult = Connected(pool: Pool, node: Node) | CreateFailed(pool: Pool, error: CreateError) | CreateCrash

  /** Connect to the aggregator the random number picks; `connects` says
      whether the connection succeeds. */
  function Connect(p: Pool, r: real, connects: bool): (c: CreateResult)
    requires 0.0 <= r < 1.0
    ensures c.CreateCrash? <==> |p.aggregators| == 0
    ensures c.Connected? ==> c.pool == p && c.node == p.aggregators[ChooseIndex(r, |p.aggregators|)]
    ensures c.Connected? <==> |p.aggregators| > 0 && connects
    ensures c.CreateFailed? ==> c.pool == p && c.error.ConnectFailed? && c.error.node in p.aggregators
    ensures |p.aggregators| > 0 && !connects ==>
      c == CreateFailed(p, ConnectFailed(p.aggregators[ChooseIndex(r, |p.aggregators|)]))
  {
    if |p.aggregators| == 0 then CreateCrash
    else
      var node := p.aggregators[ChooseIndex(r, |p.aggregators|)];
      if connects then Connected(p, node) else CreateFailed(p, ConnectFailed(node))
  }

  /** `_connection_create`: with no aggregator known, refresh the list
      first (with a callback) and fail if that fails; then connect to a
      randomly chosen aggregator. */
  function ConnectionCreate(p: Pool, r: real, io: RefreshIo, connects: bool): (c: CreateResult)
    requires 0.0 <= r < 1.0
    ensures |p.aggregators| > 0 ==> c == Connect(p, r, connects)
    ensures c.Connected? ==> c.node in c.pool.aggregators && c.pool.master == p.master
    ensures |p.aggregators| == 0 && !io.masterConnects ==> c == CreateFailed(p, RefreshFailed(MasterUnreachable))
    ensures |p.aggregators| == 0 && io.masterConnects && io.answer.QueryFailed? ==>
      c == CreateFailed(Reset(p), RefreshFailed(ListUnavailable))
    ensures |p.aggregators| == 0 && io.masterConnects && io.answer.Answer? ==>
      c == Connect(p.(aggregators := MapRows(io.answer.rows, p.master.host, p.master)), r, connects)
  {
    if |p.aggregators| == 0 then
      match Refresh(p, io, true)
      case TypeError => CreateCrash
      case Completed(q, report) =>
        if report.Failed? then CreateFailed(q, RefreshFailed(report.reason))
        else Connect(q, r, connects)
    else Connect(p, r, connects)
  }

  /** A connection is only ever made to an aggregator on the master's
      credentials. */
  lemma ConnectionUsesMasterCredentials(p: Pool, r: real, io: RefreshIo, connects: bool)
    requires 0.0 <= r < 1.0 && Credentialed(p)
    ensures var c := ConnectionCreate(p, r, io, connects);
      c.Connected? ==> c.node.user == p.master.user && c.node.password == p.master.password
  {
    var c := ConnectionCreate(p, r, io, connects);
    RefreshKeepsCredentials(p, io, true);
    if c.Connected? {
      var q := c.pool;
      var i :| 0 <= i < |q.aggregators| && q.aggregators[i] == c.node;
    }
  }

  /** From an empty list, a connection attempt crashes exactly when the
      master answers with no aggregator at all. */
  lemma EmptyAnswerCrashes(p: Pool, r: real, io: RefreshIo, connects: bool)
    requires 0.0 <= r < 1.0 && |p.aggregators| == 0
    ensures ConnectionCreate(p, r, io, connects).CreateCrash? <==>
      io.masterConnects && io.answer.Answer? && |io.answer.rows| == 0
  {
  }
}

=== FILE: analytics_cache.dfy ===
/** The write cache: `record` turns a dotted metric key into a row of the
    `analytics` table and queues it; `flush` drains the queue in batches of
    50 rows, one multi-row INSERT statement per batch. */
module AnalyticsCache {
  import opened Strings
  import opened IsoTime
  import opened Wrappers

  /** The ten classifier columns, and the thirteen columns of the INSERT. */
  const ClassifierColumns: seq<string> :=
    ["alpha", "beta", "gamma", "delta", "epsilon", "zeta", "eta", "theta", "iota", "kappa"]
  const AnalyticsColumns: seq<string> := ["classifier", "value", "created"] + ClassifierColumns

  /** One row's group of placeholders in the VALUES clause. */
  const Placeholder: string := "(?,?,?,?,?,?,?,?,?,?,?,?,?)"

  /** Rows per INSERT statement. */
  const BatchSize: nat := 50

  function Width(): nat
  {
    |ClassifierColumns|
  }

  function Padding(n: nat): (r: seq<string>)
    ensures |r| == n
    ensures forall i :: 0 <= i < n ==> r[i] == ""
  {
    seq(n, _ => "")
  }

  // Classifier slots

  /** The classifier slots exactly as the code computes them: a key of more
      than ten segments keeps segments 0..7 and puts segments 9.. joined in
      slot 8 (segment 8 is overwritten, nine slots in all); a key of fewer
      than nine segments is padded with empty strings to ten slots; a key of
      nine or ten segments is left as it is. */
  function ClassifierSlotsAsWritten(key: string): (r: seq<string>)
    ensures var segs := Split(key);
      && (|segs| < Width() - 1 ==>
            |r| == Width() && r[..|segs|] == segs && forall i :: |segs| <= i < Width() ==> r[i] == "")
      && (Width() - 1 <= |segs| <= Width() ==> r == segs)
      && (|segs| > Width() ==>
            |r| == Width() - 1 && r[..Width() - 2] == segs[..Width() - 2] && r[Width() - 2] == Join(segs[Width() - 1..], "."))
  {
    var segs := Split(key);
    if |segs| > Width() then
      segs[..Width() - 2] + [Join(segs[Width() - 1..], ".")]
    else if |segs| < Width() - 1 then
      segs + Padding(Width() - |segs|)
    else
      segs
  }

  /** The classifier slots as the comment in the code describes them: always
      ten; the tenth segment and those after it are folded into the last slot, shorter
      keys are padded with empty strings. */
  function ClassifierSlots(key: string): (r: seq<string>)
    ensures |r| == Width()
    ensures var segs := Split(key);
      && (|segs| <= Width() ==> r[..|segs|] == segs && forall i :: |segs| <= i < Width() ==> r[i] == "")
      && (|segs| > Width() ==> r[..Width() - 1] == segs[..Width() - 1] && r[Width() - 1] == Join(segs[Width() - 1..], "."))
  {
    var segs := Split(key);
    if |segs| > Width() then
      segs[..Width() - 1] + [Join(segs[Width() - 1..], ".")]
    else
      segs + Padding(Width() - |segs|)
  }

  /** How many leading slots carry segments of the key; the rest are padding. */
  function Used(key: string): (n: nat)
    ensures 1 <= n <= Width()
  {
    var k := |Split(key)|;
    if k <= Width() then k else Width()
  }

  /** Joining the slots that carry segments gives the key back: no character
      of the key is lost. */
  lemma ClassifierSlotsRoundTrip(key: string)
    ensures Join(ClassifierSlots(key)[..Used(key)], ".") == key
  {
    var segs := Split(key);
    var r := ClassifierSlots(key);
    if |segs| > Width() {
      var head := segs[..Width() - 1];
      var tail := segs[Width() - 1..];
      assert r[..Used(key)] == head + [Join(tail, ".")];
      JoinAppend(head, [Join(tail, ".")], ".");
      JoinAppend(head, tail, ".");
      assert head + tail == segs;
    }
  }

  /** Where the code is right (at most eight segments, or exactly ten) the
      corrected slots are the slots the code computes. */
  lemma CorrectedAgreesWithCode(key: string)
    requires |Split(key)| < Width() - 1 || |Split(key)| == Width()
    ensures ClassifierSlots(key) == ClassifierSlotsAsWritten(key)
  {
    var segs := Split(key);
    var a := ClassifierSlots(key);
    var b := ClassifierSlotsAsWritten(key);
    assert |a| == |b|;
    forall i | 0 <= i < |a|
      ensures a[i] == b[i]
    {
      if i < |segs| {
        assert a[i] == a[..|segs|][i] && b[i] == b[..|segs|][i];
      }
    }
  }

  /** A key of at most eight segments: the code pads to ten slots and joining
      the leading slots gives the key back. */
  lemma ShortKeyPadded(key: string)
    requires |Split(key)| < Width() - 1
    ensures |ClassifierSlotsAsWritten(key)| == Width()
    ensures ClassifierSlotsAsWritten(key)[..|Split(key)|] == Split(key)
    ensures forall i :: |Split(key)| <= i < Width() ==> ClassifierSlotsAsWritten(key)[i] == ""
    ensures Join(ClassifierSlotsAsWritten(key)[..|Split(key)|], ".") == key
  {
  }

  /** The key "a.b.c.d.e.f.g.h.i" has nine segments and the code leaves it at
      nine slots, one short of the ten classifier columns. */
  lemma NineSegmentKeyNotPadded()
    ensures var key := Join(["a", "b", "c", "d", "e", "f", "g", "h", "i"], ".");
      && |Split(key)| == 9
      && |ClassifierSlotsAsWritten(key)| == Width() - 1
  {
    var parts := ["a", "b", "c", "d", "e", "f", "g", "h", "i"];
    assert forall i :: 0 <= i < |parts| ==> DotFree(parts[i]);
    SplitJoin(parts);
  }

  /** A key of more than ten segments: the code's slots join to the key with
      its ninth segment (index 8) and one dot cut out. */
  lemma LongKeyLosesNinthSegment(key: string)
    requires |Split(key)| > Width()
    ensures var segs := Split(key);
      && key == Join(segs[..8], ".") + "." + segs[8] + "." + Join(segs[9..], ".")
      && Join(ClassifierSlotsAsWritten(key), ".") == Join(segs[..8], ".") + "." + Join(segs[9..], ".")
  {
    var segs := Split(key);
    var r := ClassifierSlotsAsWritten(key);
    assert r == segs[..8] + [Join(segs[9..], ".")];
    JoinAppend(segs[..8], [Join(segs[9..], ".")], ".");
    assert segs == segs[..8] + ([segs[8]] + segs[9..]);
    JoinAppend(segs[..8], [segs[8]] + segs[9..], ".");
    JoinAppend([segs[8]], segs[9..], ".");
  }

  /** The key "a.b.c.d.e.f.g.h.i.j.k" comes out as the nine slots
      a, b, c, d, e, f, g, h, "j.k": segment "i" is gone. */
  lemma ElevenSegmentKeyDropsSegment(key: string)
    requires Split(key) == ["a", "b", "c", "d", "e", "f", "g", "h", "i", "j", "k"]
    ensures ClassifierSlotsAsWritten(key) == ["a", "b", "c", "d", "e", "f", "g", "h", "j.k"]
  {
    var segs := Split(key);
    assert segs[9..] == ["j", "k"];
    assert Join(["j", "k"], ".") == "j" + "." + Join(["k"], ".");
    assert segs[..8] == ["a", "b", "c", "d", "e", "f", "g", "h"];
    var r := ClassifierSlotsAsWritten(key);
    assert |segs| > Width();
    assert |r| == 9;
    assert r[..8] == segs[..8];
    assert r[8] == Join(segs[9..], ".");
    assert r[8] == "j.k";
    assert r == r[..8] + [r[8]];
  }

  // Rows

  datatype Cell = Text(text: string) | Number(number: real)

  /** A pending row: `[key, value, created, ...classifiers]`. */
  datatype Row = Row(key: string, value: real, created: string, classifiers: seq<string>)

  /** The arguments of one `record` call. */
  datatype Sample = Sample(key: string, value: real, timestamp: Timestamp)

  /** The row as the flat list of values the INSERT binds. */
  function Cells(row: Row): (r: seq<Cell>)
    ensures |r| == 3 + |row.classifiers|
    ensures r[0] == Text(row.key) && r[1] == Number(row.value) && r[2] == Text(row.created)
    ensures forall i :: 0 <= i < |row.classifiers| ==> r[3 + i] == Text(row.classifiers[i])
  {
    [Text(row.key), Number(row.value), Text(row.created)] + seq(|row.classifiers|, i requires 0 <= i < |row.classifiers| => Text(row.classifiers[i]))
  }

  /** A row with one value per column of the INSERT. */
  predicate Aligned(row: Row)
  {
    |Cells(row)| == |AnalyticsColumns|
  }

  /** The row `record` queues for a sample: its key, its value, the ISO
      string of its timestamp and the ten classifier slots of its key. */
  function RowOf(s: Sample): (row: Row)
    ensures row.key == s.key && row.value == s.value
    ensures ParseIso(row.created) == Some(s.timestamp)
    ensures row.classifiers == ClassifierSlots(s.key) && |row.classifiers| == Width()
  {
    ParseFormat(s.timestamp);
    Row(s.key, s.value, FormatIso(s.timestamp), ClassifierSlots(s.key))
  }

  /** The row the code's `record` queues: as `RowOf`, with the code's slots. */
  function RowOfAsWritten(s: Sample): (row: Row)
    ensures row.key == s.key && row.value == s.value
    ensures ParseIso(row.created) == Some(s.timestamp)
    ensures row.classifiers == ClassifierSlotsAsWritten(s.key)
  {
    ParseFormat(s.timestamp);
    Row(s.key, s.value, FormatIso(s.timestamp), ClassifierSlotsAsWritten(s.key))
  }

  /** The code's row and the corrected row differ only for keys of nine, or
      more than ten, segments. */
  lemma RowOfAgrees(s: Sample)
    ensures |Split(s.key)| < Width() - 1 || |Split(s.key)| == Width() ==> RowOfAsWritten(s) == RowOf(s)
    ensures |Split(s.key)| == Width() - 1 || |Split(s.key)| > Width() ==> RowOfAsWritten(s) != RowOf(s)
  {
    if |Split(s.key)| < Width() - 1 || |Split(s.key)| == Width() {
      CorrectedAgreesWithCode(s.key);
    } else {
      assert |RowOfAsWritten(s).classifiers| != |RowOf(s).classifiers|;
    }
  }

  /** The row layout: key, value, the ISO string of the timestamp, then the
      classifier slots, which give the key back. */
  lemma RowLayout(s: Sample)
    ensures RowOf(s).key == s.key && RowOf(s).value == s.value
    ensures ParseIso(RowOf(s).created) == Some(s.timestamp)
    ensures Aligned(RowOf(s))
    ensures Join(RowOf(s).classifiers[..Used(s.key)], ".") == s.key
  {
    ParseFormat(s.timestamp);
    ClassifierSlotsRoundTrip(s.key);
  }

  /** `record(key, value, timestamp)`: one row appended at the end of the
      queue, the rows already queued untouched. */
  function Record(pending: seq<Row>, key: string, value: real, timestamp: Timestamp): (r: seq<Row>)
    ensures |r| == |pending| + 1
    ensures r[..|pending|] == pending
    ensures r[|pending|].key == key && r[|pending|].value == value
    ensures ParseIso(r[|pending|].created) == Some(timestamp)
    ensures r[|pending|].classifiers == ClassifierSlots(key) && Aligned(r[|pending|])
    ensures Join(r[|pending|].classifiers[..Used(key)], ".") == key
  {
    var row := RowOf(Sample(key, value, timestamp));
    RowLayout(Sample(key, value, timestamp));
    assert (pending + [row])[|pending|] == row;
    pending + [row]
  }

  /** `record` with the classifier slots the code computes. */
  function RecordAsWritten(pending: seq<Row>, key: string, value: real, timestamp: Timestamp): (r: seq<Row>)
    ensures |r| == |pending| + 1
    ensures r[..|pending|] == pending
    ensures r[|pending|].key == key && r[|pending|].value == value
    ensures ParseIso(r[|pending|].created) == Some(timestamp)
    ensures r[|pending|].classifiers == ClassifierSlotsAsWritten(key)
  {
    ParseFormat(timestamp);
    pending + [Row(key, value, FormatIso(timestamp), ClassifierSlotsAsWritten(key))]
  }

  /** A nine-segment key recorded by the code yields a row of twelve values
      for an INSERT group of thirteen placeholders. */
  lemma NineSegmentRowMisaligned(pending: seq<Row>, key: string, value: real, timestamp: Timestamp)
    requires |Split(key)| == Width() - 1
    ensures var row := RecordAsWritten(pending, key, value, timestamp)[|pending|];
      |Cells(row)| == |AnalyticsColumns| - 1
  {
  }

  /** `f` applied to each element, in order. */
  function MapSeq<A, B>(xs: seq<A>, f: A -> B): (r: seq<B>)
    ensures |r| == |xs|
    ensures forall i :: 0 <= i < |xs| ==> r[i] == f(xs[i])
  {
    seq(|xs|, i requires 0 <= i < |xs| => f(xs[i]))
  }

  lemma MapSeqSnoc<A, B>(xs: seq<A>, x: A, f: A -> B)
    ensures MapSeq(xs + [x], f) == MapSeq(xs, f) + [f(x)]
  {
    assert forall i :: 0 <= i < |xs| ==> (xs + [x])[i] == xs[i];
  }

  /** The rows queued for a list of samples, one per sample, in order. */
  function RecordAll(pending: seq<Row>, samples: seq<Sample>): (r: seq<Row>)
    ensures |r| == |pending| + |samples|
    ensures r[..|pending|] == pending
    ensures forall i :: 0 <= i < |samples| ==> r[|pending| + i] == RowOf(samples[i])
  {
    pending + MapSeq(samples, RowOf)
  }

  /** The rows the code queues for a list of samples, one per sample, in order. */
  function RecordAllAsWritten(pending: seq<Row>, samples: seq<Sample>): (r: seq<Row>)
    ensures |r| == |pending| + |samples|
    ensures r[..|pending|] == pending
    ensures forall i :: 0 <= i < |samples| ==> r[|pending| + i] == RowOfAsWritten(samples[i])
  {
    pending + MapSeq(samples, RowOfAsWritten)
  }

  /** The code queues a list of samples by one `record` call per sample. */
  lemma RecordAllAsWrittenIsRecordEach(pending: seq<Row>, samples: seq<Sample>, s: Sample)
    ensures RecordAllAsWritten(pending, samples + [s])
      == RecordAsWritten(RecordAllAsWritten(pending, samples), s.key, s.value, s.timestamp)
  {
    MapSeqSnoc(samples, s, RowOfAsWritten);
    assert Sample(s.key, s.value, s.timestamp) == s;
  }

  /** Queueing a list of samples is one `record` call per sample, in order. */
  lemma RecordAllIsRecordEach(pending: seq<Row>, samples: seq<Sample>, s: Sample)
    ensures RecordAll(pending, samples + [s]) == Record(RecordAll(pending, samples), s.key, s.value, s.timestamp)
  {
    MapSeqSnoc(samples, s, RowOf);
    assert Sample(s.key, s.value, s.timestamp) == s;
  }

  // Batches and statements

  function Concat<T>(xss: seq<seq<T>>): seq<T>
  {
    if |xss| == 0 then [] else xss[0] + Concat(xss[1..])
  }

  /** The queue cut into consecutive chunks of 50, the last one possibly shorter,
      as repeated `splice(0, 50)` does. */
  function Batches(q: seq<Row>): (r: seq<seq<Row>>)
    ensures Concat(r) == q
    ensures |r| == (|q| + BatchSize - 1) / BatchSize
    ensures forall i :: 0 <= i < |r| ==> 0 < |r[i]| <= BatchSize
    ensures forall i :: 0 <= i < |r| - 1 ==> |r[i]| == BatchSize
    decreases |q|
  {
    if |q| == 0 then []
    else
      var k := if |q| < BatchSize then |q| else BatchSize;
      var r := [q[..k]] + Batches(q[k..]);
      assert r[1..] == Batches(q[k..]);
      assert q == q[..k] + q[k..];
      r
  }

  /** `n` copies of `s`. */
  function Repeat(s: string, n: nat): (r: seq<string>)
    ensures |r| == n
    ensures forall i :: 0 <= i < n ==> r[i] == s
  {
    if n == 0 then [] else Repeat(s, n - 1) + [s]
  }

  /** The values of a batch: its rows' cells, concatenated in order. */
  function CellsOf(rows: seq<Row>): seq<Cell>
  {
    if |rows| == 0 then [] else CellsOf(rows[..|rows| - 1]) + Cells(rows[|rows| - 1])
  }

  lemma {:induction false} CellsOfAppend(a: seq<Row>, b: seq<Row>)
    ensures CellsOf(a + b) == CellsOf(a) + CellsOf(b)
    decreases |b|
  {
    if |b| > 0 {
      assert (a + b)[..|a + b| - 1] == a + b[..|b| - 1];
      CellsOfAppend(a, b[..|b| - 1]);
    } else {
      assert a + b == a;
    }
  }

  /** `INSERT INTO `<db>`.analytics (<13 columns>) VALUES `: the database
      name, quoted in backticks, qualifies the table. */
  function StatementTemplate(database: string): (r: string)
    ensures var n := |database|;
      && |r| == n + |Join(AnalyticsColumns, ",")| + 35
      && r[..13] == "INSERT INTO `" && r[13..13 + n] == database
      && r[13 + n..26 + n] == "`.analytics (" && r[26 + n..|r| - 9] == Join(AnalyticsColumns, ",")
      && r[|r| - 9..] == ") VALUES "
  {
    var cols := Join(AnalyticsColumns, ",");
    var r := "INSERT INTO `" + database + "`.analytics (" + cols + ") VALUES ";
    assert r == "INSERT INTO `" + (database + ("`.analytics (" + (cols + ") VALUES ")));
    r
  }

  datatype Statement = Statement(sql: string, values: seq<Cell>)

  /** The statement for one batch: the template, one placeholder group per row
      joined by commas, and the rows' values in order. */
  function BatchStatement(database: string, batch: seq<Row>): (r: Statement)
    ensures var t := StatementTemplate(database);
      |t| <= |r.sql| && r.sql[..|t|] == t
    ensures |batch| == 0 ==> r.sql == StatementTemplate(database)
    ensures r.values == CellsOf(batch)
  {
    Statement(StatementTemplate(database) + Join(Repeat(Placeholder, |batch|), ","), CellsOf(batch))
  }

  /** Every value bound by all statements, in statement order. */
  function ValuesOf(statements: seq<Statement>): seq<Cell>
  {
    if |statements| == 0 then [] else ValuesOf(statements[..|statements| - 1]) + statements[|statements| - 1].values
  }

  /** `k` copies of "?,". */
  function PairsOf(k: nat): string
  {
    if k == 0 then "" else PairsOf(k - 1) + "?,"
  }

  /** A parenthesised group of `k + 1` comma-separated `?`. */
  function Group(k: nat): string
  {
    "(" + PairsOf(k) + "?)"
  }

  lemma {:induction false} CountPairs(k: nat)
    ensures Count('?', PairsOf(k)) == k
  {
    if k > 0 {
      CountPairs(k - 1);
      CountAppend('?', PairsOf(k - 1), "?,");
      assert Count('?', "?,") == 1;
    }
  }

  lemma GroupCount(k: nat)
    ensures Count('?', Group(k)) == k + 1
  {
    CountPairs(k);
    CountAppend('?', "(", PairsOf(k));
    CountAppend('?', "(" + PairsOf(k), "?)");
    assert Count('?', "?)") == 1 && Count('?', "(") == 0;
  }

  /** Character `i` of a group of `k + 1` placeholders. */
  function ShapeAt(k: nat, i: nat): char
  {
    if i == 0 then '(' else if i == 2 * k + 2 then ')' else if i % 2 == 1 then '?' else ','
  }

  lemma {:induction false} PairsShape(k: nat)
    ensures |PairsOf(k)| == 2 * k
    ensures forall i :: 0 <= i < 2 * k ==> PairsOf(k)[i] == if i % 2 == 0 then '?' else ','
  {
    if k > 0 {
      PairsShape(k - 1);
    }
  }

  lemma GroupShape(k: nat)
    ensures |Group(k)| == 2 * k + 3
    ensures forall i :: 0 <= i < 2 * k + 3 ==> Group(k)[i] == ShapeAt(k, i)
  {
    PairsShape(k);
  }

  lemma PlaceholderShape()
    ensures |Placeholder| == 27
    ensures forall i :: 0 <= i < 27 ==> Placeholder[i] == ShapeAt(12, i)
  {
  }

  /** The placeholder group has one `?` per INSERT column. */
  lemma ColumnsMatchPlaceholder()
    ensures |AnalyticsColumns| == 13
    ensures Placeholder == Group(|AnalyticsColumns| - 1)
  {
    var k := 12;
    GroupShape(k);
    PlaceholderShape();
    assert forall i :: 0 <= i < 27 ==> Placeholder[i] == Group(k)[i];
  }

  lemma CommaJoinCount(prefix: seq<string>, x: string)
    requires |prefix| > 0
    ensures Count('?', Join(prefix + [x], ",")) == Count('?', Join(prefix, ",")) + Count('?', x)
  {
    JoinAppend(prefix, [x], ",");
    CountAppend('?', Join(prefix, ",") + ",", x);
    CountAppend('?', Join(prefix, ","), ",");
    assert Count('?', ",") == 0;
  }

  /** `n` copies of a group joined by commas hold `n` times its `?`. */
  lemma {:induction false} RepeatCount(g: string, n: nat)
    ensures Count('?', Join(Repeat(g, n), ",")) == n * Count('?', g)
  {
    if n > 1 {
      RepeatCount(g, n - 1);
      var prefix := Repeat(g, n - 1);
      assert Repeat(g, n) == prefix + [g];
      CommaJoinCount(prefix, g);
    }
  }

  /** The VALUES clause of a batch of `n` rows has 13 `?` per row. */
  lemma PlaceholderCount(n: nat)
    ensures Count('?', Join(Repeat(Placeholder, n), ",")) == n * |AnalyticsColumns|
  {
    ColumnsMatchPlaceholder();
    GroupCount(|AnalyticsColumns| - 1);
    RepeatCount(Placeholder, n);
  }

  lemma {:induction false} AlignedCellCount(rows: seq<Row>)
    requires forall i :: 0 <= i < |rows| ==> Aligned(rows[i])
    ensures |CellsOf(rows)| == |rows| * |AnalyticsColumns|
    decreases |rows|
  {
    if |rows| > 0 {
      AlignedCellCount(rows[..|rows| - 1]);
      assert Aligned(rows[|rows| - 1]);
    }
  }

  /** A batch of aligned rows binds exactly as many values as its statement
      has placeholders. */
  lemma AlignedBatchBindsEveryPlaceholder(database: string, batch: seq<Row>)
    requires forall i :: 0 <= i < |batch| ==> Aligned(batch[i])
    ensures |BatchStatement(database, batch).values| == Count('?', Join(Repeat(Placeholder, |batch|), ","))
  {
    PlaceholderCount(|batch|);
    AlignedCellCount(batch);
  }

  lemma ValuesOfAppend(statements: seq<Statement>, statement: Statement)
    ensures ValuesOf(statements + [statement]) == ValuesOf(statements) + statement.values
  {
    assert (statements + [statement])[..|statements|] == statements;
  }

  /** The body of one iteration of `flush`: one placeholder group and one
      row's values per row of the batch. */
  method AssembleBatch(database: string, batch: seq<Row>) returns (statement: Statement)
    ensures statement == BatchStatement(database, batch)
  {
    var values: seq<Cell> := [];
    var placeholders: seq<string> := [];
    for i := 0 to |batch|
      invariant values == CellsOf(batch[..i])
      invariant placeholders == Repeat(Placeholder, i)
    {
      assert batch[..i + 1][..i] == batch[..i];
      values := values + Cells(batch[i]);
      placeholders := placeholders + [Placeholder];
    }
    assert batch[..|batch|] == batch;
    statement := Statement(StatementTemplate(database) + Join(placeholders, ","), values);
  }

  /** `flush`: drains the queue, building one statement per batch of 50;
      every queued value is bound once, in queue order. */
  method Flush(database: string, pending: seq<Row>) returns (statements: seq<Statement>, remaining: seq<Row>)
    ensures remaining == []
    ensures |statements| == |Batches(pending)|
    ensures forall i :: 0 <= i < |statements| ==> statements[i] == BatchStatement(database, Batches(pending)[i])
    ensures ValuesOf(statements) == CellsOf(pending)
  {
    statements, remaining := DrainQueue(database, pending);
    FlushBindsEveryValue(database, pending, statements);
  }

  /** The statement of a batch, as a function of the batch. */
  function StatementFor(database: string): seq<Row> -> Statement
  {
    (batch: seq<Row>) => BatchStatement(database, batch)
  }

  /** The `while (this._pending.length > 0)` loop of `flush`. */
  method DrainQueue(database: string, pending: seq<Row>) returns (statements: seq<Statement>, remaining: seq<Row>)
    ensures remaining == []
    ensures |statements| == |Batches(pending)|
    ensures forall i :: 0 <= i < |statements| ==> statements[i] == BatchStatement(database, Batches(pending)[i])
  {
    statements := [];
    remaining := pending;
    ghost var done: seq<seq<Row>> := [];
    while |remaining| > 0
      invariant done + Batches(remaining) == Batches(pending)
      invariant statements == MapSeq(done, StatementFor(database))
      decreases |remaining|
    {
      var k := if |remaining| < BatchSize then |remaining| else BatchSize;
      var batch := remaining[..k];
      var statement := AssembleBatch(database, batch);
      DrainStep(pending, remaining, k, done);
      MapSeqSnoc(done, batch, StatementFor(database));
      statements := statements + [statement];
      done := done + [batch];
      remaining := remaining[k..];
    }
    assert done == Batches(pending);
  }

  lemma FlushBindsEveryValue(database: string, pending: seq<Row>, statements: seq<Statement>)
    requires |statements| == |Batches(pending)|
    requires forall i :: 0 <= i < |statements| ==> statements[i] == BatchStatement(database, Batches(pending)[i])
    ensures ValuesOf(statements) == CellsOf(pending)
  {
    ValuesOfBatches(database, statements, Batches(pending));
  }

  /** Taking one batch off the front of the queue moves it to the end of
      the batches already turned into statements. */
  lemma DrainStep(pending: seq<Row>, remaining: seq<Row>, k: nat, done: seq<seq<Row>>)
    requires 0 < |remaining| && k == (if |remaining| < BatchSize then |remaining| else BatchSize)
    requires done + Batches(remaining) == Batches(pending)
    ensures (done + [remaining[..k]]) + Batches(remaining[k..]) == Batches(pending)
  {
    BatchesFront(remaining, k);
    ShiftFront(done, remaining[..k], Batches(remaining[k..]), Batches(pending));
  }

  lemma BatchesFront(q: seq<Row>, k: nat)
    requires 0 < |q| && k == (if |q| < BatchSize then |q| else BatchSize)
    ensures Batches(q) == [q[..k]] + Batches(q[k..])
  {
  }

  lemma ShiftFront<T>(done: seq<T>, x: T, rest: seq<T>, whole: seq<T>)
    requires done + ([x] + rest) == whole
    ensures (done + [x]) + rest == whole
  {
    assert (done + [x]) + rest == done + ([x] + rest);
  }

  lemma ConcatAppend<T>(xss: seq<seq<T>>, xs: seq<T>)
    ensures Concat(xss + [xs]) == Concat(xss) + xs
  {
    if |xss| > 0 {
      assert (xss + [xs])[1..] == xss[1..] + [xs];
      ConcatAppend(xss[1..], xs);
    }
  }

  /** The statements of consecutive batches bind the batches' rows' values,
      in order. */
  lemma {:induction false} ValuesOfBatches(database: string, statements: seq<Statement>, batches: seq<seq<Row>>)
    requires |statements| == |batches|
    requires forall i :: 0 <= i < |batches| ==> statements[i] == BatchStatement(database, batches[i])
    ensures ValuesOf(statements) == CellsOf(Concat(batches))
    decreases |batches|
  {
    if |batches| > 0 {
      var n := |batches| - 1;
      assert batches == batches[..n] + [batches[n]];
      ValuesOfBatches(database, statements[..n], batches[..n]);
      ConcatAppend(batches[..n], batches[n]);
      CellsOfAppend(Concat(batches[..n]), batches[n]);
    }
  }
}

=== FILE: iso_time.dfy ===
/** `new Date(seconds * 1000).toISOString()` for whole, non-negative Unix
    seconds up to the end of year 9999: the date-time format of section 5.6
    of RFC 3339, `YYYY-MM-DDTHH:MM:SS.000Z`, in UTC on the proleptic
    Gregorian calendar. */
module IsoTime {
  import opened Wrappers

  const SecondsPerDay: nat := 86400
  const EpochYear: nat := 1970

  predicate IsLeap(y: int)
  {
    y % 4 == 0 && (y % 100 != 0 || y % 400 == 0)
  }

  function YearLength(y: int): nat
  {
    if IsLeap(y) then 366 else 365
  }

  /** Days of each month, and days before each month, in a common year. */
  const CommonMonthDays: seq<nat> := [31, 28, 31, 30, 31, 30, 31, 31, 30, 31, 30, 31]
  const CommonDaysBefore: seq<nat> := [0, 31, 59, 90, 120, 151, 181, 212, 243, 273, 304, 334]

  function MonthLength(y: int, m: int): nat
    requires 1 <= m <= 12
  {
    CommonMonthDays[m - 1] + (if m == 2 && IsLeap(y) then 1 else 0)
  }

  function DaysBeforeMonth(y: int, m: int): nat
    requires 1 <= m <= 12
  {
    CommonDaysBefore[m - 1] + (if m > 2 && IsLeap(y) then 1 else 0)
  }

  /** Days from 1970-01-01 to January 1st of year `y`. */
  function DaysBeforeYear(y: int): nat
    requires y >= EpochYear
    decreases y - EpochYear
  {
    if y == EpochYear then 0 else DaysBeforeYear(y - 1) + YearLength(y - 1)
  }

  lemma MonthTable(y: int, m: int)
    requires 1 <= m <= 12
    ensures m < 12 ==> DaysBeforeMonth(y, m + 1) == DaysBeforeMonth(y, m) + MonthLength(y, m)
    ensures m == 12 ==> DaysBeforeMonth(y, m) + MonthLength(y, m) == YearLength(y)
  {
  }

  lemma {:induction false} MonthWithinYear(y: int, m: int)
    requires 1 <= m <= 12
    ensures DaysBeforeMonth(y, m) + MonthLength(y, m) <= YearLength(y)
    decreases 12 - m
  {
    MonthTable(y, m);
    if m < 12 {
      MonthWithinYear(y, m + 1);
    }
  }

  /** The months of a year are laid out one after the other. */
  lemma {:induction false} MonthsAscend(y: int, m1: int, m2: int)
    requires 1 <= m1 <= 12 && 1 <= m2 <= 12
    ensures m1 < m2 ==> DaysBeforeMonth(y, m1) + MonthLength(y, m1) <= DaysBeforeMonth(y, m2)
    ensures DaysBeforeMonth(y, m1) + MonthLength(y, m1) <= YearLength(y)
    decreases m2
  {
    MonthWithinYear(y, m1);
    if m1 < m2 {
      MonthTable(y, m2 - 1);
      if m1 < m2 - 1 {
        MonthsAscend(y, m1, m2 - 1);
      }
    }
  }

  /** The years are laid out one after the other. */
  lemma {:induction false} YearsAscend(y1: int, y2: int)
    requires EpochYear <= y1 < y2
    ensures DaysBeforeYear(y1) + YearLength(y1) <= DaysBeforeYear(y2)
    decreases y2
  {
    if y2 > y1 + 1 {
      YearsAscend(y1, y2 - 1);
    }
  }

  /** Splits `rem` days after January 1st of `y` into a year and a day of that year. */
  function YearOf(y: int, rem: nat): (r: (int, nat))
    requires y >= EpochYear
    ensures r.0 >= y
    ensures r.1 < YearLength(r.0)
    ensures DaysBeforeYear(r.0) + r.1 == DaysBeforeYear(y) + rem
    decreases rem
  {
    if rem < YearLength(y) then (y, rem) else YearOf(y + 1, rem - YearLength(y))
  }

  /** Splits `rem` days after the first of month `m` into a month and a day of that month. */
  function MonthOf(y: int, m: int, rem: nat): (r: (int, nat))
    requires 1 <= m <= 12
    requires DaysBeforeMonth(y, m) + rem < YearLength(y)
    ensures m <= r.0 <= 12
    ensures r.1 < MonthLength(y, r.0)
    ensures DaysBeforeMonth(y, r.0) + r.1 == DaysBeforeMonth(y, m) + rem
    decreases 12 - m
  {
    MonthTable(y, m);
    if rem < MonthLength(y, m) then (m, rem) else MonthOf(y, m + 1, rem - MonthLength(y, m))
  }

  datatype DateTime = DateTime(year: int, month: int, day: int, hour: int, minute: int, second: int)

  /** A real date at or after the epoch, with a time of day. */
  predicate CalendarValid(dt: DateTime)
  {
    && dt.year >= EpochYear
    && 1 <= dt.month <= 12
    && 1 <= dt.day <= MonthLength(dt.year, dt.month)
    && 0 <= dt.hour < 24
    && 0 <= dt.minute < 60
    && 0 <= dt.second < 60
  }

  function DayNumber(dt: DateTime): nat
    requires CalendarValid(dt)
  {
    DaysBeforeYear(dt.year) + DaysBeforeMonth(dt.year, dt.month) + dt.day - 1
  }

  /** Seconds since 1970-01-01T00:00:00Z of a date-time: the reference
      against which the conversion below is checked. */
  function SecondsOf(dt: DateTime): nat
    requires CalendarValid(dt)
  {
    DayNumber(dt) * SecondsPerDay + dt.hour * 3600 + dt.minute * 60 + dt.second
  }

  lemma TimeOfDay(tod: nat)
    requires tod < SecondsPerDay
    ensures tod / 3600 < 24
    ensures (tod % 3600) / 60 < 60
    ensures (tod / 3600) * 3600 + ((tod % 3600) / 60) * 60 + (tod % 3600) % 60 == tod
  {
  }

  /** The UTC date-time of `t` seconds after the epoch. */
  function ToDateTime(t: nat): (dt: DateTime)
    ensures CalendarValid(dt)
    ensures SecondsOf(dt) == t
  {
    var days := t / SecondsPerDay;
    var tod := t % SecondsPerDay;
    var yd := YearOf(EpochYear, days);
    var md := MonthOf(yd.0, 1, yd.1);
    TimeOfDay(tod);
    DateTime(yd.0, md.0, md.1 + 1, tod / 3600, (tod % 3600) / 60, (tod % 3600) % 60)
  }

  /** Whole Unix seconds from 1970-01-01T00:00:00Z to the end of year 9999. */
  type Timestamp = t: nat | ToDateTime(t).year <= 9999 witness 0

  lemma {:induction false} DayNumberInjective(a: DateTime, b: DateTime)
    requires CalendarValid(a) && CalendarValid(b)
    requires DayNumber(a) == DayNumber(b)
    ensures a.year == b.year && a.month == b.month && a.day == b.day
  {
    MonthsAscend(a.year, a.month, b.month);
    MonthsAscend(b.year, b.month, a.month);
    if a.year < b.year {
      YearsAscend(a.year, b.year);
    } else if b.year < a.year {
      YearsAscend(b.year, a.year);
    }
  }

  /** Distinct valid date-times denote distinct instants. */
  lemma {:induction false} SecondsOfInjective(a: DateTime, b: DateTime)
    requires CalendarValid(a) && CalendarValid(b)
    requires SecondsOf(a) == SecondsOf(b)
    ensures a == b
  {
    assert DayNumber(a) == DayNumber(b);
    DayNumberInjective(a, b);
  }

  /** The conversion is the unique valid date-time at that instant. */
  lemma ToDateTimeUnique(dt: DateTime)
    requires CalendarValid(dt)
    ensures ToDateTime(SecondsOf(dt)) == dt
  {
    SecondsOfInjective(ToDateTime(SecondsOf(dt)), dt);
  }

  // Fixed-width decimal digits

  function Pow10(n: nat): (r: nat)
    ensures r >= 1
  {
    if n == 0 then 1 else 10 * Pow10(n - 1)
  }

  predicate IsDigit(c: char)
  {
    '0' <= c <= '9'
  }

  predicate AllDigits(s: string)
  {
    forall i :: 0 <= i < |s| ==> IsDigit(s[i])
  }

  /** `n` in exactly `w` decimal digits, left-padded with zeros. */
  function PadDigits(n: nat, w: nat): (r: string)
    requires n < Pow10(w)
    ensures |r| == w
    ensures AllDigits(r)
  {
    if w == 0 then "" else PadDigits(n / 10, w - 1) + [('0' as int + n % 10) as char]
  }

  /** The number a string of decimal digits denotes. */
  function DigitsValue(s: string): nat
    requires AllDigits(s)
  {
    if |s| == 0 then 0 else DigitsValue(s[..|s| - 1]) * 10 + (s[|s| - 1] as int - '0' as int)
  }

  lemma {:induction false} DigitsOfPad(n: nat, w: nat)
    requires n < Pow10(w)
    ensures DigitsValue(PadDigits(n, w)) == n
  {
    if w > 0 {
      var r := PadDigits(n, w);
      assert r[..w - 1] == PadDigits(n / 10, w - 1);
      DigitsOfPad(n / 10, w - 1);
    }
  }

  lemma {:induction false} PadOfDigits(s: string)
    requires AllDigits(s)
    ensures DigitsValue(s) < Pow10(|s|)
    ensures PadDigits(DigitsValue(s), |s|) == s
  {
    if |s| > 0 {
      var init := s[..|s| - 1];
      PadOfDigits(init);
      var v := DigitsValue(s);
      assert v / 10 == DigitsValue(init);
      assert s == init + [s[|s| - 1]];
    }
  }

  // Rendering and parsing

  predicate Renderable(dt: DateTime)
  {
    CalendarValid(dt) && dt.year <= 9999
  }

  function Render(dt: DateTime): (r: string)
    requires Renderable(dt)
  {
    PadDigits(dt.year, 4) + "-" + PadDigits(dt.month, 2) + "-" + PadDigits(dt.day, 2)
    + "T" + PadDigits(dt.hour, 2) + ":" + PadDigits(dt.minute, 2) + ":" + PadDigits(dt.second, 2)
    + ".000Z"
  }

  /** The fixed layout of the format: digits with separators at fixed positions. */
  predicate WellShaped(s: string)
  {
    && |s| == 24
    && AllDigits(s[0..4]) && s[4] == '-' && AllDigits(s[5..7]) && s[7] == '-' && AllDigits(s[8..10])
    && s[10] == 'T' && AllDigits(s[11..13]) && s[13] == ':' && AllDigits(s[14..16]) && s[16] == ':'
    && AllDigits(s[17..19]) && s[19..] == ".000Z"
  }

  function Fields(s: string): DateTime
    requires WellShaped(s)
  {
    DateTime(DigitsValue(s[0..4]), DigitsValue(s[5..7]), DigitsValue(s[8..10]),
             DigitsValue(s[11..13]), DigitsValue(s[14..16]), DigitsValue(s[17..19]))
  }

  /** Reads back a timestamp written in the format above (years 1970 to 9999). */
  function ParseIso(s: string): Option<nat>
  {
    if !WellShaped(s) then None
    else
      var dt := Fields(s);
      if Renderable(dt) then Some(SecondsOf(dt)) else None
  }

  lemma RenderSlices(dt: DateTime)
    requires Renderable(dt)
    ensures WellShaped(Render(dt))
    ensures Render(dt)[0..4] == PadDigits(dt.year, 4)
    ensures Render(dt)[5..7] == PadDigits(dt.month, 2)
    ensures Render(dt)[8..10] == PadDigits(dt.day, 2)
    ensures Render(dt)[11..13] == PadDigits(dt.hour, 2)
    ensures Render(dt)[14..16] == PadDigits(dt.minute, 2)
    ensures Render(dt)[17..19] == PadDigits(dt.second, 2)
  {
    var r := Render(dt);
    assert r[0..4] == PadDigits(dt.year, 4);
    assert r[5..7] == PadDigits(dt.month, 2);
    assert r[8..10] == PadDigits(dt.day, 2);
    assert r[11..13] == PadDigits(dt.hour, 2);
    assert r[14..16] == PadDigits(dt.minute, 2);
    assert r[17..19] == PadDigits(dt.second, 2);
    assert r[19..] == ".000Z";
  }

  lemma FieldsOfRender(dt: DateTime)
    requires Renderable(dt)
    ensures WellShaped(Render(dt)) && Fields(Render(dt)) == dt
  {
    RenderSlices(dt);
    DigitsOfPad(dt.year, 4);
    DigitsOfPad(dt.month, 2);
    DigitsOfPad(dt.day, 2);
    DigitsOfPad(dt.hour, 2);
    DigitsOfPad(dt.minute, 2);
    DigitsOfPad(dt.second, 2);
  }

  lemma RenderOfFields(s: string)
    requires WellShaped(s) && Renderable(Fields(s))
    ensures Render(Fields(s)) == s
  {
    var dt := Fields(s);
    PadOfDigits(s[0..4]);
    PadOfDigits(s[5..7]);
    PadOfDigits(s[8..10]);
    PadOfDigits(s[11..13]);
    PadOfDigits(s[14..16]);
    PadOfDigits(s[17..19]);
    SliceParts(s);
  }

  /** A well-shaped string is its digit fields and separators, in order. */
  lemma SliceParts(s: string)
    requires WellShaped(s)
    ensures s == s[0..4] + "-" + s[5..7] + "-" + s[8..10] + "T" + s[11..13] + ":" + s[14..16] + ":" + s[17..19] + ".000Z"
  {
    assert s == s[0..4] + s[4..5] + s[5..7] + s[7..8] + s[8..10] + s[10..11] + s[11..13] + s[13..14] + s[14..16] + s[16..17] + s[17..19] + s[19..];
    assert s[4..5] == "-" && s[7..8] == "-" && s[10..11] == "T";
    assert s[13..14] == ":" && s[16..17] == ":";
  }

  /** The ISO string of `t` seconds after the epoch. */
  function FormatIso(t: Timestamp): (r: string)
    ensures |r| == 24
    ensures r[4] == '-' && r[7] == '-' && r[10] == 'T' && r[13] == ':' && r[16] == ':'
    ensures r[19..] == ".000Z"
  {
    var dt := ToDateTime(t);
    RenderSlices(dt);
    Render(dt)
  }

  /** Parsing a formatted timestamp gives the seconds back. */
  lemma ParseFormat(t: Timestamp)
    ensures ParseIso(FormatIso(t)) == Some(t)
  {
    FieldsOfRender(ToDateTime(t));
  }

  /** Every string the parser accepts is the formatting of what it returns;
      what it returns meets the constraint of `Timestamp`. */
  lemma FormatParse(s: string, t: nat)
    requires ParseIso(s) == Some(t)
    ensures ToDateTime(t).year <= 9999
    ensures FormatIso(t) == s
  {
    var dt := Fields(s);
    ToDateTimeUnique(dt);
    RenderOfFields(s);
  }

  /** Distinct instants render as distinct strings. */
  lemma FormatInjective(t1: Timestamp, t2: Timestamp)
    requires FormatIso(t1) == FormatIso(t2)
    ensures t1 == t2
  {
    ParseFormat(t1);
    ParseFormat(t2);
  }
}

=== FILE: memsql_statsd.dfy ===
/** The statsd backend: the checking of the `memsql` configuration block,
    the turning of one flush's metrics into cache records, the backend's own
    statistics and the status report. */
module MemsqlStatsd {
  import opened Wrappers
  import opened Strings
  import opened IsoTime
  import opened AnalyticsCache
  import AggregatorsPool

  // Configuration

  /** A JavaScript value as a statsd configuration file can hold it. */
  datatype JsValue =
    | Undefined
    | Null
    | Bool(b: bool)
    | Num(n: real)
    | Str(s: string)
    | Obj(fields: map<string, JsValue>)

  /** `_.has(v, key)`: `v` is an object with its own property `key`. */
  predicate Has(v: JsValue, key: string)
  {
    v.Obj? && key in v.fields
  }

  /** JavaScript truthiness, as `!!v` computes it. */
  predicate Truthy(v: JsValue)
  {
    match v
    case Undefined => false
    case Null => false
    case Bool(b) => b
    case Num(n) => n != 0.0
    case Str(s) => s != ""
    case Obj(_) => true
  }

  /** The connection settings of the master aggregator and the database. */
  datatype MemsqlConfig = MemsqlConfig(host: string, port: real, user: string, password: string, database: string)

  datatype Settings = Settings(debug: bool, memsql: MemsqlConfig)

  /** One error per `throw` of the configuration check. */
  datatype ConfigError =
    | MissingConfig
    | MissingHost
    | HostNotString
    | PortNotNumber
    | UserNotString
    | PasswordNotString
    | DatabaseNotString

  const DefaultPort: real := 3306.0
  const DefaultUser: string := "root"
  const DefaultPassword: string := ""
  const DefaultDatabase: string := "dashboard"

  /** A string setting that may be left out: its default when absent. */
  function OptionalString(c: JsValue, key: string, default: string, error: ConfigError): (r: Result<string, ConfigError>)
    ensures !Has(c, key) ==> r == Success(default)
    ensures Has(c, key) ==> (r.Success? <==> c.fields[key].Str?)
    ensures Has(c, key) && r.Success? ==> r.value == c.fields[key].s
    ensures r.Failure? ==> r.error == error
  {
    if !Has(c, key) then Success(default)
    else if c.fields[key].Str? then Success(c.fields[key].s)
    else Failure(error)
  }

  /** Every setting that is present has the type the check demands. */
  predicate WellTyped(c: JsValue)
  {
    && Has(c, "host") && c.fields["host"].Str?
    && (Has(c, "port") ==> c.fields["port"].Num?)
    && (Has(c, "user") ==> c.fields["user"].Str?)
    && (Has(c, "password") ==> c.fields["password"].Str?)
    && (Has(c, "database") ==> c.fields["database"].Str?)
  }

  /** The setting `key` is given with the wrong type: the port must be a
      number, the other settings strings. */
  predicate Mistyped(c: JsValue, key: string)
  {
    Has(c, key) && !(if key == "port" then c.fields[key].Num? else c.fields[key].Str?)
  }

  /** The configuration check: the `memsql` block must exist and hold a
      string host; port, user, password and database default to 3306,
      "root", "" and "dashboard" and must have the right type when given.
      The checks run in that order and the first failing one is reported. */
  function ProcessConfig(statsd: map<string, JsValue>): (r: Result<Settings, ConfigError>)
    ensures r.Success? <==> "memsql" in statsd && WellTyped(statsd["memsql"])
    ensures r == Failure(MissingConfig) <==> "memsql" !in statsd
    ensures r.Success? ==> r.value.debug == ("debug" in statsd && Truthy(statsd["debug"]))
    ensures r.Success? ==>
      var c := statsd["memsql"];
      && r.value.memsql.host == c.fields["host"].s
      && r.value.memsql.port == (if Has(c, "port") then c.fields["port"].n else DefaultPort)
      && r.value.memsql.user == (if Has(c, "user") then c.fields["user"].s else DefaultUser)
      && r.value.memsql.password == (if Has(c, "password") then c.fields["password"].s else DefaultPassword)
      && r.value.memsql.database == (if Has(c, "database") then c.fields["database"].s else DefaultDatabase)
    ensures "memsql" in statsd && !Has(statsd["memsql"], "host") ==> r == Failure(MissingHost)
    ensures "memsql" in statsd ==> var c := statsd["memsql"];
      Has(c, "host") && !c.fields["host"].Str? ==> r == Failure(HostNotString)
    ensures "memsql" in statsd ==> var c := statsd["memsql"];
      Has(c, "host") && c.fields["host"].Str? && Mistyped(c, "port") ==> r == Failure(PortNotNumber)
    ensures "memsql" in statsd ==> var c := statsd["memsql"];
      Has(c, "host") && c.fields["host"].Str? && !Mistyped(c, "port") && Mistyped(c, "user") ==> r == Failure(UserNotString)
    ensures "memsql" in statsd ==> var c := statsd["memsql"];
      Has(c, "host") && c.fields["host"].Str? && !Mistyped(c, "port") && !Mistyped(c, "user") && Mistyped(c, "password") ==>
        r == Failure(PasswordNotString)
    ensures "memsql" in statsd ==> var c := statsd["memsql"];
      && Has(c, "host") && c.fields["host"].Str?
      && !Mistyped(c, "port") && !Mistyped(c, "user") && !Mistyped(c, "password") && Mistyped(c, "database")
      ==> r == Failure(DatabaseNotString)
  {
    var debug := "debug" in statsd && Truthy(statsd["debug"]);
    if "memsql" !in statsd then Failure(MissingConfig)
    else
      var c := statsd["memsql"];
      if !Has(c, "host") then Failure(MissingHost)
      else if !c.fields["host"].Str? then Failure(HostNotString)
      else if Has(c, "port") && !c.fields["port"].Num? then Failure(PortNotNumber)
      else
        var port := if Has(c, "port") then c.fields["port"].n else DefaultPort;
        var user := OptionalString(c, "user", DefaultUser, UserNotString);
        var password := OptionalString(c, "password", DefaultPassword, PasswordNotString);
        var database := OptionalString(c, "database", DefaultDatabase, DatabaseNotString);
        if user.Failure? then Failure(user.error)
        else if password.Failure? then Failure(password.error)
        else if database.Failure? then Failure(database.error)
        else Success(Settings(debug, MemsqlConfig(c.fields["host"].s, port, user.value, password.value, database.value)))
  }

  /** The configuration object that spells out every setting. */
  function ConfigObject(s: Settings): map<string, JsValue>
  {
    var c := s.memsql;
    map[
      "debug" := Bool(s.debug),
      "memsql" := Obj(map[
        "host" := Str(c.host), "port" := Num(c.port), "user" := Str(c.user),
        "password" := Str(c.password), "database" := Str(c.database)])]
  }

  /** Every settings value is accepted back unchanged once written out. */
  lemma ConfigRoundTrip(s: Settings)
    ensures ProcessConfig(ConfigObject(s)) == Success(s)
  {
  }

  /** A block holding only the host gets every other setting's default. */
  lemma ConfigDefaults(host: string, debug: JsValue)
    ensures ProcessConfig(map["debug" := debug, "memsql" := Obj(map["host" := Str(host)])])
      == Success(Settings(Truthy(debug), MemsqlConfig(host, 3306.0, "root", "", "dashboard")))
  {
  }

  /** A host of the wrong type is reported before anything else is looked at. */
  lemma HostCheckedFirst(statsd: map<string, JsValue>)
    requires "memsql" in statsd && Has(statsd["memsql"], "host") && !statsd["memsql"].fields["host"].Str?
    ensures ProcessConfig(statsd) == Failure(HostNotString)
  {
  }

  // The backend's own statistics

  /** `exception_count`, `flush_time` and `flush_length`. */
  datatype Stats = Stats(exceptionCount: int, flushTime: int, flushLength: int)

  const InitialStats: Stats := Stats(0, -1, 0)

  /** The statistics as name/value pairs, in the order the object declares them. */
  function StatEntries(stats: Stats): seq<(string, int)>
  {
    [("exception_count", stats.exceptionCount), ("flush_time", stats.flushTime), ("flush_length", stats.flushLength)]
  }

  /** The entries whose value is truthy, that is non-zero, in order. */
  function NonZero(entries: seq<(string, int)>): (r: seq<(string, int)>)
    ensures forall e :: e in r <==> e in entries && e.1 != 0
    ensures |r| <= |entries|
  {
    if |entries| == 0 then []
    else
      var rest := NonZero(entries[1..]);
      assert forall e :: e in entries <==> e == entries[0] || e in entries[1..];
      if entries[0].1 != 0 then [entries[0]] + rest else rest
  }

  /** Filtering keeps the order: the kept entries of `a` come before those of `b`. */
  lemma {:induction false} NonZeroAppend(a: seq<(string, int)>, b: seq<(string, int)>)
    ensures NonZero(a + b) == NonZero(a) + NonZero(b)
    decreases |a|
  {
    if |a| == 0 {
      assert a + b == b;
    } else {
      assert (a + b)[1..] == a[1..] + b;
      NonZeroAppend(a[1..], b);
    }
  }

  /** The entry as a one-entry list if its value is non-zero, else nothing. */
  function Kept(e: (string, int)): seq<(string, int)>
  {
    if e.1 != 0 then [e] else []
  }

  lemma NonZeroSingle(e: (string, int))
    ensures NonZero([e]) == Kept(e)
  {
    assert [e][1..] == [];
  }

  /** The non-zero statistics, each once, in the order the object declares
      them: `exception_count`, `flush_time`, `flush_length`. */
  lemma NonZeroStatsInOrder(stats: Stats)
    ensures NonZero(StatEntries(stats))
      == Kept(("exception_count", stats.exceptionCount)) + Kept(("flush_time", stats.flushTime)) + Kept(("flush_length", stats.flushLength))
  {
    var e := StatEntries(stats);
    assert e == [e[0]] + [e[1]] + [e[2]];
    NonZeroAppend([e[0]] + [e[1]], [e[2]]);
    NonZeroAppend([e[0]], [e[1]]);
    NonZeroSingle(e[0]);
    NonZeroSingle(e[1]);
    NonZeroSingle(e[2]);
  }

  /** One `write_callback(null, 'memsql', name, value)` call. */
  datatype StatusLine = StatusLine(backend: string, name: string, value: int)

  function LineOf(e: (string, int)): StatusLine
  {
    StatusLine("memsql", e.0, e.1)
  }

  /** The status report: one line per non-zero statistic. */
  function Status(stats: Stats): (r: seq<StatusLine>)
    ensures forall l :: l in r <==> l.backend == "memsql" && (l.name, l.value) in StatEntries(stats) && l.value != 0
  {
    var entries := NonZero(StatEntries(stats));
    var r := MapSeq(entries, LineOf);
    assert forall l :: l in r ==> (l.name, l.value) in entries by {
      forall l | l in r
        ensures (l.name, l.value) in entries
      {
        var i :| 0 <= i < |r| && r[i] == l;
      }
    }
    assert forall e :: e in entries ==> StatusLine("memsql", e.0, e.1) in r by {
      forall e | e in entries
        ensures StatusLine("memsql", e.0, e.1) in r
      {
        var i :| 0 <= i < |entries| && entries[i] == e;
        assert r[i] == StatusLine("memsql", e.0, e.1);
      }
    }
    r
  }

  lemma MapSeqAppend<A, B>(a: seq<A>, b: seq<A>, f: A -> B)
    ensures MapSeq(a + b, f) == MapSeq(a, f) + MapSeq(b, f)
  {
  }

  /** The status report writes the non-zero statistics, each once, in the
      order the object declares them. */
  lemma StatusInOrder(stats: Stats)
    ensures Status(stats)
      == MapSeq(Kept(("exception_count", stats.exceptionCount)), LineOf)
       + MapSeq(Kept(("flush_time", stats.flushTime)), LineOf)
       + MapSeq(Kept(("flush_length", stats.flushLength)), LineOf)
  {
    var a := Kept(("exception_count", stats.exceptionCount));
    var b := Kept(("flush_time", stats.flushTime));
    var c := Kept(("flush_length", stats.flushLength));
    NonZeroStatsInOrder(stats);
    MapSeqAppend(a + b, c, LineOf);
    MapSeqAppend(a, b, LineOf);
  }

  /** A freshly started backend reports only its flush time of -1. */
  lemma InitialStatus()
    ensures Status(InitialStats) == [StatusLine("memsql", "flush_time", -1)]
  {
    var entries := StatEntries(InitialStats);
    assert NonZero(entries[2..]) == [];
    assert NonZero(entries[1..]) == [entries[1]];
  }

  /** What the cache reports back after a flush: how many rows it wrote, or
      that it failed. */
  datatype FlushReport = Flushed(rows: nat) | FlushFailed

  /** The statistics after a flush report that took `elapsed` milliseconds:
      a failure counts one more exception and leaves the timings; a success
      records the time and the number of rows. */
  function UpdateStats(stats: Stats, report: FlushReport, elapsed: int): (r: Stats)
    ensures report.FlushFailed? ==> r.exceptionCount == stats.exceptionCount + 1
    ensures report.FlushFailed? ==> r.flushTime == stats.flushTime && r.flushLength == stats.flushLength
    ensures report.Flushed? ==> r.exceptionCount == stats.exceptionCount
    ensures report.Flushed? ==> r.flushTime == elapsed && r.flushLength == report.rows
  {
    match report
    case FlushFailed => stats.(exceptionCount := stats.exceptionCount + 1)
    case Flushed(rows) => stats.(flushTime := elapsed, flushLength := rows)
  }

  /** The code's flush leaves the statistics as they were; any report other
      than an empty success timed exactly as last recorded changes them. */
  lemma FrozenStatsMissReport(stats: Stats, report: FlushReport, elapsed: int)
    ensures report.FlushFailed? ==> UpdateStats(stats, report, elapsed) != stats
    ensures report.Flushed? && (report.rows != stats.flushLength || elapsed != stats.flushTime) ==>
      UpdateStats(stats, report, elapsed) != stats
  {
  }

  /** After a successful flush of a non-empty queue, the status report
      carries the number of rows written. */
  lemma StatusReportsFlushLength(stats: Stats, rows: nat, elapsed: int)
    requires rows > 0
    ensures StatusLine("memsql", "flush_length", rows) in Status(UpdateStats(stats, Flushed(rows), elapsed))
  {
    assert ("flush_length", rows) in StatEntries(UpdateStats(stats, Flushed(rows), elapsed));
  }

  /** After a failed flush, the status report carries the exception count. */
  lemma StatusReportsFailure(stats: Stats)
    requires stats.exceptionCount >= 0
    ensures StatusLine("memsql", "exception_count", stats.exceptionCount + 1) in Status(UpdateStats(stats, FlushFailed, 0))
  {
    assert ("exception_count", stats.exceptionCount + 1) in StatEntries(UpdateStats(stats, FlushFailed, 0));
  }

  // Metrics

  /** A counter: statsd hands over its count and its per-second rate under
      the same key. */
  datatype Counter = Counter(key: string, count: real, rate: real)

  /** One field of a timer's data: a number, or an object of numbers (a
      histogram). */
  datatype TimerValue = Scalar(number: real) | Fields(fields: seq<(string, real)>)

  datatype Timer = Timer(key: string, data: seq<(string, TimerValue)>)

  /** One flush's metrics, each kind in key order. A set is given by its
      distinct members. */
  datatype Metrics = Metrics(
    counters: seq<Counter>,
    timers: seq<Timer>,
    gauges: seq<(string, real)>,
    sets: seq<(string, set<string>)>)

  /** Every record carries the timestamp `t`. */
  predicate Stamped(r: seq<Sample>, t: Timestamp)
  {
    forall i :: 0 <= i < |r| ==> r[i].timestamp == t
  }

  lemma StampedAppend(a: seq<Sample>, b: seq<Sample>, t: Timestamp)
    requires Stamped(a, t) && Stamped(b, t)
    ensures Stamped(a + b, t)
  {
  }

  /** `[a, b].join('.')`. */
  function Dotted(a: string, b: string): (r: string)
    ensures r == a + "." + b
  {
    assert [a, b][1..] == [b];
    assert Join([a, b], ".") == a + "." + Join([b], ".");
    Join([a, b], ".")
  }

  /** `[a, b, c].join('.')`. */
  function Dotted3(a: string, b: string, c: string): (r: string)
    ensures r == a + "." + b + "." + c
  {
    assert [a, b, c][1..] == [b, c] && [b, c][1..] == [c];
    assert Join([a, b, c], ".") == a + "." + Join([b, c], ".");
    assert Join([b, c], ".") == b + "." + Join([c], ".");
    Join([a, b, c], ".")
  }

  /** The count and rate records of one counter, as the code writes them:
      both carry the count. */
  function CounterPairAsWritten(c: Counter, t: Timestamp): (r: seq<Sample>)
    ensures |r| == 2 && Stamped(r, t)
    ensures r[0] == Sample(c.key + ".count", c.count, t)
    ensures r[1] == Sample(c.key + ".rate", c.count, t)
  {
    [Sample(Dotted(c.key, "count"), c.count, t), Sample(Dotted(c.key, "rate"), c.count, t)]
  }

  /** The count and rate records of one counter: the rate record carries the
      per-second rate the code looks up and then leaves unused. */
  function CounterPair(c: Counter, t: Timestamp): (r: seq<Sample>)
    ensures |r| == 2 && Stamped(r, t)
    ensures r[0] == Sample(c.key + ".count", c.count, t)
    ensures r[1] == Sample(c.key + ".rate", c.rate, t)
  {
    [Sample(Dotted(c.key, "count"), c.count, t), Sample(Dotted(c.key, "rate"), c.rate, t)]
  }

  /** The rate record of a counter, as written, equals its count whatever
      the rate is. */
  lemma RateRecordCarriesCount(c: Counter, t: Timestamp)
    ensures CounterPairAsWritten(c, t)[1].key == c.key + ".rate"
    ensures CounterPairAsWritten(c, t)[1].value == c.count
    ensures c.rate != c.count ==> CounterPairAsWritten(c, t)[1] != CounterPair(c, t)[1]
  {
  }

  /** The two records of every counter, in counter order. */
  function CounterSamples(cs: seq<Counter>, t: Timestamp): (r: seq<Sample>)
    ensures Stamped(r, t)
    ensures |r| == 2 * |cs|
    ensures forall i :: 0 <= i < |cs| ==> r[2 * i] == Sample(cs[i].key + ".count", cs[i].count, t)
    ensures forall i :: 0 <= i < |cs| ==> r[2 * i + 1] == Sample(cs[i].key + ".rate", cs[i].rate, t)
    decreases |cs|
  {
    if |cs| == 0 then []
    else
      var n := |cs| - 1;
      var prev := CounterSamples(cs[..n], t);
      var r := prev + CounterPair(cs[n], t);
      assert forall i :: 0 <= i < n ==> cs[..n][i] == cs[i];
      r
  }

  /** The two records of every counter as the code writes them: the rate
      record carries the count. */
  function CounterSamplesAsWritten(cs: seq<Counter>, t: Timestamp): (r: seq<Sample>)
    ensures Stamped(r, t)
    ensures |r| == 2 * |cs|
    ensures forall i :: 0 <= i < |cs| ==> r[2 * i] == Sample(cs[i].key + ".count", cs[i].count, t)
    ensures forall i :: 0 <= i < |cs| ==> r[2 * i + 1] == Sample(cs[i].key + ".rate", cs[i].count, t)
    decreases |cs|
  {
    if |cs| == 0 then []
    else
      var n := |cs| - 1;
      var prev := CounterSamplesAsWritten(cs[..n], t);
      var r := prev + CounterPairAsWritten(cs[n], t);
      assert forall i :: 0 <= i < n ==> cs[..n][i] == cs[i];
      r
  }

  /** The counter with its count in place of its rate. */
  function CountAsRate(c: Counter): Counter
  {
    c.(rate := c.count)
  }

  /** The code's counter records are the corrected ones for counters whose
      rate equals their count. */
  lemma CounterSamplesAsWrittenUseCount(cs: seq<Counter>, t: Timestamp)
    ensures CounterSamplesAsWritten(cs, t) == CounterSamples(MapSeq(cs, CountAsRate), t)
  {
    var a := CounterSamplesAsWritten(cs, t);
    var b := CounterSamples(MapSeq(cs, CountAsRate), t);
    var ms := MapSeq(cs, CountAsRate);
    forall k | 0 <= k < |a|
      ensures a[k] == b[k]
    {
      var i := k / 2;
      assert ms[i] == CountAsRate(cs[i]);
      if k % 2 == 0 {
        assert k == 2 * i;
      } else {
        assert k == 2 * i + 1;
      }
    }
  }

  /** The records of one timer field: one for a number, one per entry for an
      object. */
  function FieldSamples(key: string, field: string, v: TimerValue, t: Timestamp): (r: seq<Sample>)
    ensures Stamped(r, t)
    ensures v.Scalar? ==> r == [Sample(key + "." + field, v.number, t)]
    ensures v.Fields? ==> |r| == |v.fields|
    ensures v.Fields? ==> forall j :: 0 <= j < |v.fields| ==>
      r[j] == Sample(key + "." + field + "." + v.fields[j].0, v.fields[j].1, t)
  {
    match v
    case Scalar(n) => [Sample(Dotted(key, field), n, t)]
    case Fields(subs) => MapSeq(subs, (s: (string, real)) => Sample(Dotted3(key, field, s.0), s.1, t))
  }

  /** The number of records a timer's data yields. */
  function FieldCount(data: seq<(string, TimerValue)>): nat
  {
    if |data| == 0 then 0
    else FieldCount(data[..|data| - 1]) + (match data[|data| - 1].1 case Scalar(_) => 1 case Fields(f) => |f|)
  }

  /** The records of a timer's field, as a function of the field. */
  function FieldRecords(key: string, t: Timestamp): ((string, TimerValue)) -> seq<Sample>
  {
    (d: (string, TimerValue)) => FieldSamples(key, d.0, d.1, t)
  }

  /** The records of one timer: each field's records, in field order. */
  function TimerSamples(key: string, data: seq<(string, TimerValue)>, t: Timestamp): (r: seq<Sample>)
    ensures |r| == FieldCount(data)
    ensures Stamped(r, t)
    decreases |data|
  {
    if |data| == 0 then []
    else
      var n := |data| - 1;
      var prev := TimerSamples(key, data[..n], t);
      var last := FieldSamples(key, data[n].0, data[n].1, t);
      StampedAppend(prev, last, t);
      prev + last
  }

  /** A timer's records are each field's records, in field order. */
  lemma {:induction false} TimerSamplesFieldByField(key: string, data: seq<(string, TimerValue)>, t: Timestamp)
    ensures TimerSamples(key, data, t) == Concat(MapSeq(data, FieldRecords(key, t)))
    decreases |data|
  {
    if |data| > 0 {
      var n := |data| - 1;
      TimerSamplesFieldByField(key, data[..n], t);
      assert data == data[..n] + [data[n]];
      MapSeqSnoc(data[..n], data[n], FieldRecords(key, t));
      ConcatAppend(MapSeq(data[..n], FieldRecords(key, t)), FieldSamples(key, data[n].0, data[n].1, t));
    }
  }

  /** A timer whose fields are all numbers yields one record per field, named
      `<timer>.<field>`. */
  lemma {:induction false} ScalarTimerSamples(key: string, data: seq<(string, TimerValue)>, t: Timestamp)
    requires forall j :: 0 <= j < |data| ==> data[j].1.Scalar?
    ensures |TimerSamples(key, data, t)| == |data|
    ensures forall j :: 0 <= j < |data| ==>
      TimerSamples(key, data, t)[j] == Sample(key + "." + data[j].0, data[j].1.number, t)
    decreases |data|
  {
    if |data| > 0 {
      var n := |data| - 1;
      ScalarTimerSamples(key, data[..n], t);
      assert forall j :: 0 <= j < n ==> data[..n][j] == data[j];
    }
  }

  function TimerCount(timers: seq<Timer>): nat
  {
    if |timers| == 0 then 0 else TimerCount(timers[..|timers| - 1]) + FieldCount(timers[|timers| - 1].data)
  }

  /** The records of a timer, as a function of the timer. */
  function TimerRecords(t: Timestamp): Timer -> seq<Sample>
  {
    (tm: Timer) => TimerSamples(tm.key, tm.data, t)
  }

  /** The records of every timer: each timer's records, in timer order. */
  function AllTimerSamples(timers: seq<Timer>, t: Timestamp): (r: seq<Sample>)
    ensures |r| == TimerCount(timers)
    ensures Stamped(r, t)
    decreases |timers|
  {
    if |timers| == 0 then []
    else
      var n := |timers| - 1;
      var prev := AllTimerSamples(timers[..n], t);
      var last := TimerSamples(timers[n].key, timers[n].data, t);
      StampedAppend(prev, last, t);
      prev + last
  }

  /** The timers' records are each timer's records, in timer order. */
  lemma {:induction false} AllTimerSamplesTimerByTimer(timers: seq<Timer>, t: Timestamp)
    ensures AllTimerSamples(timers, t) == Concat(MapSeq(timers, TimerRecords(t)))
    decreases |timers|
  {
    if |timers| > 0 {
      var n := |timers| - 1;
      AllTimerSamplesTimerByTimer(timers[..n], t);
      assert timers == timers[..n] + [timers[n]];
      MapSeqSnoc(timers[..n], timers[n], TimerRecords(t));
      ConcatAppend(MapSeq(timers[..n], TimerRecords(t)), TimerSamples(timers[n].key, timers[n].data, t));
    }
  }

  /** One record per gauge, under the gauge's own key. */
  function GaugeSamples(gauges: seq<(string, real)>, t: Timestamp): (r: seq<Sample>)
    ensures Stamped(r, t)
    ensures |r| == |gauges|
    ensures forall i :: 0 <= i < |gauges| ==> r[i] == Sample(gauges[i].0, gauges[i].1, t)
  {
    MapSeq(gauges, (g: (string, real)) => Sample(g.0, g.1, t))
  }

  /** One `<set>.count` record per set, carrying its number of distinct members. */
  function SetSamples(sets: seq<(string, set<string>)>, t: Timestamp): (r: seq<Sample>)
    ensures Stamped(r, t)
    ensures |r| == |sets|
    ensures forall i :: 0 <= i < |sets| ==> r[i] == Sample(sets[i].0 + ".count", |sets[i].1| as real, t)
  {
    MapSeq(sets, (s: (string, set<string>)) => Sample(Dotted(s.0, "count"), |s.1| as real, t))
  }

  /** One `memsql_statsd.<name>` record per statistic entry. */
  function EntrySamples(entries: seq<(string, int)>, t: Timestamp): (r: seq<Sample>)
    ensures |r| == |entries|
    ensures Stamped(r, t)
    ensures forall i :: 0 <= i < |entries| ==> r[i] == Sample("memsql_statsd." + entries[i].0, entries[i].1 as real, t)
  {
    MapSeq(entries, (e: (string, int)) => Sample(Dotted("memsql_statsd", e.0), e.1 as real, t))
  }

  lemma EntrySamplesAppend(a: seq<(string, int)>, b: seq<(string, int)>, t: Timestamp)
    ensures EntrySamples(a + b, t) == EntrySamples(a, t) + EntrySamples(b, t)
  {
    var l := EntrySamples(a + b, t);
    var r := EntrySamples(a, t) + EntrySamples(b, t);
    forall i | 0 <= i < |l|
      ensures l[i] == r[i]
    {
      if i >= |a| {
        assert (a + b)[i] == b[i - |a|];
      }
    }
  }

  /** The records of the non-zero statistics: one `memsql_statsd.<name>`
      record per non-zero statistic, in the order the object declares them. */
  function StatSamples(stats: Stats, t: Timestamp): (r: seq<Sample>)
    ensures |r| == |NonZero(StatEntries(stats))|
    ensures Stamped(r, t)
    ensures r == EntrySamples(Kept(("exception_count", stats.exceptionCount)), t)
      + EntrySamples(Kept(("flush_time", stats.flushTime)), t)
      + EntrySamples(Kept(("flush_length", stats.flushLength)), t)
  {
    var a := Kept(("exception_count", stats.exceptionCount));
    var b := Kept(("flush_time", stats.flushTime));
    var c := Kept(("flush_length", stats.flushLength));
    NonZeroStatsInOrder(stats);
    EntrySamplesAppend(a + b, c, t);
    EntrySamplesAppend(a, b, t);
    EntrySamples(NonZero(StatEntries(stats)), t)
  }

  lemma Regroup<T>(a: seq<T>, b: seq<T>, c: seq<T>, d: seq<T>, e: seq<T>)
    ensures a + (b + c + d + e) == a + b + c + d + e
  {
  }

  /** The records that follow the counters': timers, gauges, sets, then the
      backend's statistics. */
  function OtherSamples(t: Timestamp, m: Metrics, stats: Stats): (r: seq<Sample>)
    ensures |r| == TimerCount(m.timers) + |m.gauges| + |m.sets| + |NonZero(StatEntries(stats))|
    ensures Stamped(r, t)
    ensures r == AllTimerSamples(m.timers, t) + GaugeSamples(m.gauges, t) + SetSamples(m.sets, t) + StatSamples(stats, t)
  {
    var timers := AllTimerSamples(m.timers, t);
    var gauges := GaugeSamples(m.gauges, t);
    var sets := SetSamples(m.sets, t);
    var own := StatSamples(stats, t);
    StampedAppend(timers, gauges, t);
    StampedAppend(timers + gauges, sets, t);
    StampedAppend(timers + gauges + sets, own, t);
    timers + gauges + sets + own
  }

  /** The records one flush queues: counters, timers, gauges, sets, then the
      backend's statistics, all stamped with the flush's timestamp. */
  function FlushSamples(t: Timestamp, m: Metrics, stats: Stats): (r: seq<Sample>)
    ensures |r| == 2 * |m.counters| + TimerCount(m.timers) + |m.gauges| + |m.sets| + |NonZero(StatEntries(stats))|
    ensures Stamped(r, t)
    ensures r == CounterSamples(m.counters, t) + AllTimerSamples(m.timers, t) + GaugeSamples(m.gauges, t)
      + SetSamples(m.sets, t) + StatSamples(stats, t)
  {
    var counters := CounterSamples(m.counters, t);
    var rest := OtherSamples(t, m, stats);
    StampedAppend(counters, rest, t);
    Regroup(counters, AllTimerSamples(m.timers, t), GaugeSamples(m.gauges, t), SetSamples(m.sets, t), StatSamples(stats, t));
    counters + rest
  }

  /** The records the code queues: as `FlushSamples`, except that each
      counter's rate record carries its count. */
  function FlushSamplesAsWritten(t: Timestamp, m: Metrics, stats: Stats): (r: seq<Sample>)
    ensures |r| == |FlushSamples(t, m, stats)|
    ensures Stamped(r, t)
    ensures r[..2 * |m.counters|] == CounterSamplesAsWritten(m.counters, t)
    ensures r[2 * |m.counters|..] == FlushSamples(t, m, stats)[2 * |m.counters|..]
  {
    var counters := CounterSamplesAsWritten(m.counters, t);
    var rest := OtherSamples(t, m, stats);
    StampedAppend(counters, rest, t);
    counters + rest
  }

  /** The code's records are the corrected records of the same metrics with
      every counter's rate replaced by its count. */
  lemma FlushSamplesAsWrittenUseCount(t: Timestamp, m: Metrics, stats: Stats)
    ensures FlushSamplesAsWritten(t, m, stats) == FlushSamples(t, m.(counters := MapSeq(m.counters, CountAsRate)), stats)
  {
    CounterSamplesAsWrittenUseCount(m.counters, t);
    var m' := m.(counters := MapSeq(m.counters, CountAsRate));
    assert OtherSamples(t, m', stats) == OtherSamples(t, m, stats);
  }

  /** The statistics records of a fresh backend: only `flush_time`, at -1. */
  lemma InitialStatSamples(t: Timestamp)
    ensures StatSamples(InitialStats, t) == [Sample("memsql_statsd.flush_time", -1.0, t)]
  {
    var entries := StatEntries(InitialStats);
    assert NonZero(entries[2..]) == [];
    assert NonZero(entries[1..]) == [entries[1]];
    assert NonZero(entries) == [("flush_time", -1)];
    var r := EntrySamples(NonZero(entries), t);
    assert |r| == 1 && r[0] == Sample("memsql_statsd." + "flush_time", -1.0, t);
    assert "memsql_statsd." + "flush_time" == "memsql_statsd.flush_time";
  }

  // The backend

  /** The backend's state: its settings, the pool of aggregators the cache
      writes through, its statistics and the rows the cache holds. */
  datatype Backend = Backend(settings: Settings, pool: AggregatorsPool.Pool, stats: Stats, pending: seq<Row>)

  /** A backend just started from a configuration, or the configuration
      error that stops it. A started backend's pool knows only the
      configured master, reached with the configured credentials. */
  function Start(statsd: map<string, JsValue>): (r: Result<Backend, ConfigError>)
    ensures r.Success? <==> ProcessConfig(statsd).Success?
    ensures r.Success? ==> r.value.settings == ProcessConfig(statsd).value
    ensures r.Success? ==> r.value.stats == InitialStats && r.value.pending == []
    ensures r.Success? ==> var c := r.value.settings.memsql;
      r.value.pool.master == AggregatorsPool.Node(c.host, c.port, c.user, c.password)
    ensures r.Success? ==> r.value.pool.aggregators == []
    ensures r.Failure? ==> r.error == ProcessConfig(statsd).error
  {
    match ProcessConfig(statsd)
    case Failure(e) => Failure(e)
    case Success(s) =>
      var c := s.memsql;
      Success(Backend(s, AggregatorsPool.NewPool(c.host, c.port, c.user, c.password), InitialStats, []))
  }

  /** One flush as the code runs it: the records are queued and the cache
      flushed, but the cache never calls back, so the statistics stay as
      they were. */
  method FlushAsWritten(b: Backend, t: Timestamp, m: Metrics) returns (next: Backend, statements: seq<Statement>)
    ensures next.settings == b.settings && next.pool == b.pool
    ensures next.stats == b.stats && next.pending == []
    ensures |statements| == |Batches(RecordAllAsWritten(b.pending, FlushSamplesAsWritten(t, m, b.stats)))|
    ensures ValuesOf(statements) == CellsOf(RecordAllAsWritten(b.pending, FlushSamplesAsWritten(t, m, b.stats)))
    ensures forall i :: 0 <= i < |statements| ==>
      statements[i] == BatchStatement(b.settings.memsql.database, Batches(RecordAllAsWritten(b.pending, FlushSamplesAsWritten(t, m, b.stats)))[i])
  {
    var queued := RecordAllAsWritten(b.pending, FlushSamplesAsWritten(t, m, b.stats));
    var remaining;
    statements, remaining := AnalyticsCache.Flush(b.settings.memsql.database, queued);
    next := Backend(b.settings, b.pool, b.stats, remaining);
  }

  /** One flush: the records of every metric are queued, the cache is
      flushed in statements of 50 rows, and the statistics take in the
      cache's report. */
  method Flush(b: Backend, t: Timestamp, m: Metrics, report: FlushReport, elapsed: int)
    returns (next: Backend, statements: seq<Statement>)
    ensures next.settings == b.settings && next.pool == b.pool && next.pending == []
    ensures next.stats == UpdateStats(b.stats, report, elapsed)
    ensures |statements| == |Batches(RecordAll(b.pending, FlushSamples(t, m, b.stats)))|
    ensures ValuesOf(statements) == CellsOf(RecordAll(b.pending, FlushSamples(t, m, b.stats)))
    ensures forall i :: 0 <= i < |statements| ==>
      statements[i] == BatchStatement(b.settings.memsql.database, Batches(RecordAll(b.pending, FlushSamples(t, m, b.stats)))[i])
  {
    var queued := RecordAll(b.pending, FlushSamples(t, m, b.stats));
    var remaining;
    statements, remaining := AnalyticsCache.Flush(b.settings.memsql.database, queued);
    next := Backend(b.settings, b.pool, UpdateStats(b.stats, report, elapsed), remaining);
  }
}

=== FILE: strings.dfy ===
/** Joining strings with a separator and splitting on '.', with the
    semantics of JavaScript's `Array.prototype.join` and `String.prototype.split`. */
module Strings {

  /** `parts.join(sep)`: the empty list joins to the empty string. */
  function Join(parts: seq<string>, sep: string): (r: string)
    ensures |parts| == 0 ==> r == ""
    ensures |parts| > 0 ==> |parts[0]| <= |r| && r[..|parts[0]|] == parts[0]
  {
    if |parts| == 0 then ""
    else if |parts| == 1 then parts[0]
    else parts[0] + sep + Join(parts[1..], sep)
  }

  /** The total length of the parts. */
  function Lengths(parts: seq<string>): nat
  {
    if |parts| == 0 then 0 else |parts[0]| + Lengths(parts[1..])
  }

  /** A join of n parts is as long as the parts plus n - 1 separators. */
  lemma {:induction false} JoinLength(parts: seq<string>, sep: string)
    requires |parts| > 0
    ensures |Join(parts, sep)| == Lengths(parts) + (|parts| - 1) * |sep|
    decreases |parts|
  {
    if |parts| > 1 {
      JoinLength(parts[1..], sep);
    }
  }

  predicate DotFree(s: string)
  {
    '.' !in s
  }

  /** Number of occurrences of `c` in `s`. */
  function Count(c: char, s: string): nat
  {
    if |s| == 0 then 0 else (if s[0] == c then 1 else 0) + Count(c, s[1..])
  }

  /** `s.split('.')`: the segments between dots, so the empty string gives one
      empty segment and a key with k dots gives k + 1 segments. */
  function Split(s: string): (r: seq<string>)
    ensures |r| == Count('.', s) + 1
    ensures forall i :: 0 <= i < |r| ==> DotFree(r[i])
    ensures Join(r, ".") == s
    decreases |s|
  {
    if |s| == 0 then [""]
    else
      var rest := Split(s[1..]);
      if s[0] == '.' then
        assert ([""] + rest)[1..] == rest;
        [""] + rest
      else
        var r := [[s[0]] + rest[0]] + rest[1..];
        assert r[1..] == rest[1..];
        assert s == [s[0]] + s[1..];
        r
  }

  lemma {:induction false} CountAppend(c: char, a: string, b: string)
    ensures Count(c, a + b) == Count(c, a) + Count(c, b)
    decreases |a|
  {
    if |a| == 0 {
      assert a + b == b;
    } else {
      assert (a + b)[1..] == a[1..] + b;
      CountAppend(c, a[1..], b);
    }
  }

  /** Joining two non-empty lists is joining their joins. */
  lemma {:induction false} JoinAppend(a: seq<string>, b: seq<string>, sep: string)
    requires |a| > 0 && |b| > 0
    ensures Join(a + b, sep) == Join(a, sep) + sep + Join(b, sep)
    decreases |a|
  {
    if |a| == 1 {
      assert (a + b)[1..] == b;
    } else {
      assert (a + b)[1..] == a[1..] + b;
      JoinAppend(a[1..], b, sep);
    }
  }

  /** The first segment of a join is the text before its first dot. */
  lemma {:induction false} JoinHead(parts: seq<string>)
    requires |parts| > 1
    requires forall i :: 0 <= i < |parts| ==> DotFree(parts[i])
    ensures |parts[0]| < |Join(parts, ".")|
    ensures Join(parts, ".")[|parts[0]|] == '.'
    ensures Join(parts, ".")[..|parts[0]|] == parts[0]
  {
    assert Join(parts, ".") == parts[0] + "." + Join(parts[1..], ".");
  }

  /** A dot-free join is exactly one part. */
  lemma {:induction false} JoinDotFree(parts: seq<string>)
    requires |parts| > 0
    requires forall i :: 0 <= i < |parts| ==> DotFree(parts[i])
    ensures DotFree(Join(parts, ".")) <==> |parts| == 1
  {
    if |parts| > 1 {
      JoinHead(parts);
    }
  }

  /** Dot-joining non-empty lists of dot-free segments is injective. */
  lemma {:induction false} JoinInjective(a: seq<string>, b: seq<string>)
    requires |a| > 0 && |b| > 0
    requires forall i :: 0 <= i < |a| ==> DotFree(a[i])
    requires forall i :: 0 <= i < |b| ==> DotFree(b[i])
    requires Join(a, ".") == Join(b, ".")
    ensures a == b
    decreases |a|
  {
    JoinDotFree(a);
    JoinDotFree(b);
    if |a| > 1 {
      var s := Join(a, ".");
      JoinHead(a);
      JoinHead(b);
      assert a[0] == b[0];
      assert s == a[0] + "." + Join(a[1..], ".");
      assert s == b[0] + "." + Join(b[1..], ".");
      assert Join(a[1..], ".") == s[|a[0]| + 1..];
      assert Join(b[1..], ".") == s[|b[0]| + 1..];
      JoinInjective(a[1..], b[1..]);
      assert a == [a[0]] + a[1..];
      assert b == [b[0]] + b[1..];
    }
  }

  /** Splitting a dot-join of dot-free segments gives the segments back. */
  lemma SplitJoin(parts: seq<string>)
    requires |parts| > 0
    requires forall i :: 0 <= i < |parts| ==> DotFree(parts[i])
    ensures Split(Join(parts, ".")) == parts
  {
    JoinInjective(Split(Join(parts, ".")), parts);
  }
}

=== FILE: wrappers.dfy ===
/** Option and Result datatypes used for the error paths of the model. */
module Wrappers {

  datatype Option<+T> = None | Some(value: T)

  /** Success carries a value; Failure carries the error the JavaScript code
      throws or hands to its callback. */
  datatype Result<+R, +E> = Success(value: R) | Failure(error: E)
}
